=== FILE: README.md ===
# GeoServer OAuth2 authentication filter — Dafny model

This project models the decision core of GeoServer's OAuth2 pre-authentication
filter, `GeoServerOAuthAuthenticationFilter`. The filter sits in the servlet
filter chain and does these jobs:

- it validates the access token it holds, or one passed as the `access_token` request parameter;
- it sends the browser to the authorization server when the OAuth2 client
  library asks for user interaction;
- it resolves the principal name and maps it to GeoServer roles;
- it installs the resulting authentication in the security context and
  caches it;
- on logout, it forgets the token, invalidates the session and re-sends the
  session cookie.

Everything is modelled as immutable values and pure functions. A `State`
holds:

- the request (the `access_token` parameter, the memo attributes
  `UserNameAlreadyRetrieved`/`UserName`, the logout-redirect attribute, the
  cookies, the session);
- the response (status, redirect, added cookies);
- the OAuth2 client context (held token, pending token request, preserved
  state);
- the security context's authentication;
- the authentication cache;
- a trace of calls into collaborators (`Validated`, `DisabledUserHandled`,
  `RolesLookedUp`, `CacheWritten`, `ChainContinued`).

Java exceptions become an `Outcome` that is either `Returned(value)` or
`Threw(fault)`. A `Checked` fault is an `IOException`/`ServletException`; an
`Unchecked` fault is a runtime exception. A `Threw` result keeps the state
changes made before the throw.

The collaborators the filter calls but does not define are function-typed
fields of `Collaborators`, so every property holds for every behaviour of
theirs that is expressible as a function of what they are given:

- token validation (`attemptAuthentication`);
- user lookup in the user/group service;
- `getRoles`;
- `buildDetails`;
- the cache lookup behind `authenticateFromCache` (the request's cache key
  and the authentication cached under it; `authenticateFromCache` itself is
  modelled as keeping a held authentication and otherwise installing the
  cached one);
- `cacheAuthentication`.

Validation returns `Resolved(principal)`, `RedirectRequired`, or
`Failed(fault)`. It may also change the client context, as the OAuth2 REST
template does when it obtains a token.

Files:

- `java_strings.dfy` (module `JavaStrings`) spells out the Java string
  semantics the filter depends on: `trim().length() == 0`, `replace`,
  `split` (trailing empty strings dropped), and `equalsIgnoreCase`.
- `oauth_types.dfy` holds the data model and the constants.
- `entry_point.dfy` holds the login redirect and `parseScopes`.
- `principal.dfy` holds `getPreAuthenticatedPrincipal(request, response)`.
- `authenticate.dfy` holds `doAuthenticate`.
- `filter.dfy` holds `doFilter`.
- `logout.dfy` holds `logout`.

Behaviour of the code worth knowing:

- The root user is `GeoServerUser.ROOT_USERNAME`, i.e. `"root"`.
- The principal is only tested for blankness. It is never trimmed.
- After a redirect, the request still goes down the chain. `doAuthenticate`
  simply finds no principal and `doFilter` continues the chain.
- If `getRoles` already returns the authenticated role, the role list is used
  unchanged. Duplicates it contains are kept, and the role is never added a
  second time.
- On logout the session cookie is re-sent with max-age -1 and path "/". A
  negative max-age makes a cookie last until the browser exits; it does not
  delete it (that takes max-age 0), although the cookie comment the code
  writes calls it expiring. The model keeps -1.
- A request without cookies is not guarded. The Java loop dereferences
  `getCookies()` directly, and the model only covers a (possibly empty)
  cookie sequence.

## Model

| member | source | states |
|---|---|---|
| EntryPoint.LoginUri | src/community/security/oauth2/src/main/java/org/geoserver/security/oauth2/GeoServerOAuthAuthenticationFilter.java:86-91 | the login URI is the authorization URI, `?`, then exactly the four parameters response_type=code, client_id, scope, redirect_uri in that order, joined by `&` |
| EntryPoint.EncodedScopes | src/community/security/oauth2/src/main/java/org/geoserver/security/oauth2/GeoServerOAuthAuthenticationFilter.java:90 | the scope value contains no comma; it is the comma-separated pieces, empty ones included, joined with `%20`; a comma-free scope list is passed through unchanged |
| EntryPoint.LoginUriExample | src/community/security/oauth2/src/main/java/org/geoserver/security/oauth2/GeoServerOAuthAuthenticationFilter.java:86-91 | scopes "read,write" give `...&scope=read%20write&redirect_uri=...` for the sample configuration |
| EntryPoint.EncodedScopesAreParsedScopes | src/community/security/oauth2/src/main/java/org/geoserver/security/oauth2/GeoServerOAuthAuthenticationFilter.java:90 | for a scope list not ending in a comma, the redirect's scope value is the parsed scopes joined with `%20` |
| EntryPoint.ParseScopes | src/community/security/oauth2/src/main/java/org/geoserver/security/oauth2/GeoServerOAuthAuthenticationFilter.java:300-304 | no parsed scope contains a comma; a comma-free input is its own single scope; otherwise the scopes are the comma-separated pieces with the trailing empty ones dropped: a prefix of all pieces, ending in a non-empty scope, followed in the input only by empty pieces |
| EntryPoint.ParseScopesRoundTrip | src/community/security/oauth2/src/main/java/org/geoserver/security/oauth2/GeoServerOAuthAuthenticationFilter.java:300-304 | joining the parsed scopes with "," gives back any input that does not end with a comma |
| EntryPoint.ParseScopesIgnoresTrailingComma | src/community/security/oauth2/src/main/java/org/geoserver/security/oauth2/GeoServerOAuthAuthenticationFilter.java:300-304 | a trailing comma after a non-empty scope list adds no scope |
| EntryPoint.ParseJoinedScopes | src/community/security/oauth2/src/main/java/org/geoserver/security/oauth2/GeoServerOAuthAuthenticationFilter.java:300-304 | parsing the comma-join of comma-free scopes whose last one is non-empty gives back those scopes |
| JavaStrings.Trim | src/community/security/oauth2/src/main/java/org/geoserver/security/oauth2/GeoServerOAuthAuthenticationFilter.java:257 | `trim` leaves a string no longer than its input whose first and last characters, if any, are above U+0020 |
| JavaStrings.BlankIffTrimEmpty | src/community/security/oauth2/src/main/java/org/geoserver/security/oauth2/GeoServerOAuthAuthenticationFilter.java:257 | `IsBlank`, the test "every character is at most U+0020", holds exactly when `trim()` yields the empty string, which is the test of lines 182 and 257 |
| JavaStrings.TrimValue | src/community/security/oauth2/src/main/java/org/geoserver/security/oauth2/GeoServerOAuthAuthenticationFilter.java:257 | `trim` keeps the contiguous slice of its input that starts after the characters `TrimStart` cuts |
| JavaStrings.TrimCutsOnlyBlanks | src/community/security/oauth2/src/main/java/org/geoserver/security/oauth2/GeoServerOAuthAuthenticationFilter.java:257 | every character `trim` cuts, before or after the kept slice, is at most U+0020 |
| JavaStrings.EqualsIgnoreCase | src/community/security/oauth2/src/main/java/org/geoserver/security/oauth2/GeoServerOAuthAuthenticationFilter.java:155 | `equalsIgnoreCase` holds for equal strings and only for strings of equal length |
| JavaStrings.EqualsIgnoreCaseAscii | src/community/security/oauth2/src/main/java/org/geoserver/security/oauth2/GeoServerOAuthAuthenticationFilter.java:155 | against an ASCII string, `equalsIgnoreCase` is equality of lengths and of characters after case folding |
| JavaStrings.EqualsIgnoreCaseSymmetric | src/community/security/oauth2/src/main/java/org/geoserver/security/oauth2/GeoServerOAuthAuthenticationFilter.java:155 | `equalsIgnoreCase` does not depend on the order of its arguments |
| JavaStrings.Split | src/community/security/oauth2/src/main/java/org/geoserver/security/oauth2/GeoServerOAuthAuthenticationFilter.java:302 | `split` yields separator-free pieces, at most one more than there are separators, and the whole input when no separator occurs; otherwise it is all pieces with the trailing empty ones dropped: a prefix of them whose last element, if any, is non-empty, and every piece cut off is empty |
| JavaStrings.Fields | src/community/security/oauth2/src/main/java/org/geoserver/security/oauth2/GeoServerOAuthAuthenticationFilter.java:302 | before trailing empties are dropped there is at least one piece and none contains the separator |
| JavaStrings.FieldsCount | src/community/security/oauth2/src/main/java/org/geoserver/security/oauth2/GeoServerOAuthAuthenticationFilter.java:302 | before trailing empties are dropped there is exactly one more piece than there are separators |
| JavaStrings.DropTrailingEmpty | src/community/security/oauth2/src/main/java/org/geoserver/security/oauth2/GeoServerOAuthAuthenticationFilter.java:302 | the result is a prefix ending in a non-empty piece, and everything removed is empty |
| JavaStrings.JoinFields | src/community/security/oauth2/src/main/java/org/geoserver/security/oauth2/GeoServerOAuthAuthenticationFilter.java:302 | re-joining all pieces with the separator gives back the input |
| JavaStrings.FieldsOfJoin | src/community/security/oauth2/src/main/java/org/geoserver/security/oauth2/GeoServerOAuthAuthenticationFilter.java:302 | splitting a join of separator-free pieces recovers them, empty ones included |
| JavaStrings.SplitJoinRoundTrip | src/community/security/oauth2/src/main/java/org/geoserver/security/oauth2/GeoServerOAuthAuthenticationFilter.java:302 | joining the result of `split` gives back every input that does not end with the separator |
| JavaStrings.FieldsAppendSeparator | src/community/security/oauth2/src/main/java/org/geoserver/security/oauth2/GeoServerOAuthAuthenticationFilter.java:302 | a trailing separator adds exactly one empty piece to the pieces before trailing empties are dropped |
| JavaStrings.SplitIgnoresTrailingSeparator | src/community/security/oauth2/src/main/java/org/geoserver/security/oauth2/GeoServerOAuthAuthenticationFilter.java:302 | `split` of a non-empty input is unchanged by appending the separator |
| JavaStrings.JoinSplitRoundTrip | src/community/security/oauth2/src/main/java/org/geoserver/security/oauth2/GeoServerOAuthAuthenticationFilter.java:302 | `split` of a join of separator-free pieces with a non-empty last piece gives the pieces back |
| JavaStrings.ReplaceChar | src/community/security/oauth2/src/main/java/org/geoserver/security/oauth2/GeoServerOAuthAuthenticationFilter.java:90 | after `replace` the target character is gone whenever the replacement lacks it |
| JavaStrings.ReplaceCharAbsent | src/community/security/oauth2/src/main/java/org/geoserver/security/oauth2/GeoServerOAuthAuthenticationFilter.java:90 | `replace` leaves a string without the target unchanged |
| JavaStrings.ReplaceSeparator | src/community/security/oauth2/src/main/java/org/geoserver/security/oauth2/GeoServerOAuthAuthenticationFilter.java:90 | replacing the separator of a join re-joins the same pieces with the replacement |
| PrincipalResolution.AdoptAccessToken | src/community/security/oauth2/src/main/java/org/geoserver/security/oauth2/GeoServerOAuthAuthenticationFilter.java:232-237 | the `access_token` parameter becomes a default-typed token only when no token is held; a held token is never replaced |
| PrincipalResolution.NonBlank | src/community/security/oauth2/src/main/java/org/geoserver/security/oauth2/GeoServerOAuthAuthenticationFilter.java:256-258 | a principal survives exactly when it is present and not blank, and then unchanged |
| PrincipalResolution.Memoise | src/community/security/oauth2/src/main/java/org/geoserver/security/oauth2/GeoServerOAuthAuthenticationFilter.java:274-277 | the memo flag is set, `UserName` is recorded only for a present principal, nothing else changes |
| PrincipalResolution.DiscardDisabled | src/community/security/oauth2/src/main/java/org/geoserver/security/oauth2/GeoServerOAuthAuthenticationFilter.java:259-273 | a principal is dropped only for an existing, disabled user of the user/group service, with exactly one disabled-user notification; a lookup failure throws |
| PrincipalResolution.ValidateStep | src/community/security/oauth2/src/main/java/org/geoserver/security/oauth2/GeoServerOAuthAuthenticationFilter.java:232-255 | the validator runs exactly once, on the held token or else the adopted parameter, and the response is redirected to the login URI exactly when the validator asks for user approval |
| PrincipalResolution.Settle | src/community/security/oauth2/src/main/java/org/geoserver/security/oauth2/GeoServerOAuthAuthenticationFilter.java:259-277 | after validation, a kept principal is the one given, is recorded as `UserName`, and the memo flag is set; a lookup failure leaves the request untouched; only disabled-user notifications are recorded |
| PrincipalResolution.ResolvePrincipal | src/community/security/oauth2/src/main/java/org/geoserver/security/oauth2/GeoServerOAuthAuthenticationFilter.java:221-278 | a memoised request returns the stored name and touches nothing; otherwise the validator runs exactly once on the held-or-adopted token; every normal return sets the memo flag; `UserName` is set exactly for a returned principal, which is never blank; a throw leaves the request as it was |
| PrincipalResolution.ValidationOutcomes | src/community/security/oauth2/src/main/java/org/geoserver/security/oauth2/GeoServerOAuthAuthenticationFilter.java:243-258 | a validation failure propagates, a redirect-required answer redirects to the login URI and yields no principal, a blank principal becomes none |
| PrincipalResolution.DisabledUserIsDiscarded | src/community/security/oauth2/src/main/java/org/geoserver/security/oauth2/GeoServerOAuthAuthenticationFilter.java:259-268 | with the user/group role source, a disabled existing user yields no principal and one hook call; an enabled or unknown user keeps the principal |
| PrincipalResolution.ResolveIsMemoised | src/community/security/oauth2/src/main/java/org/geoserver/security/oauth2/GeoServerOAuthAuthenticationFilter.java:227-277 | resolving twice in one fresh request (no memo flag and no recorded user name) returns the first answer and changes nothing the second time; with a stale user name and no principal found, the memo would return the stale name |
| PrincipalResolution.HeldTokenIsNeverOverwritten | src/community/security/oauth2/src/main/java/org/geoserver/security/oauth2/GeoServerOAuthAuthenticationFilter.java:232-237 | when a token is held, the validator sees that token whatever the request supplies |
| Authenticate.WithAuthenticatedRole | src/community/security/oauth2/src/main/java/org/geoserver/security/oauth2/GeoServerOAuthAuthenticationFilter.java:200-201 | the authenticated role is present; the looked-up roles are a prefix in order; the role is appended only if absent; every other role keeps its multiplicity |
| Authenticate.Install | src/community/security/oauth2/src/main/java/org/geoserver/security/oauth2/GeoServerOAuthAuthenticationFilter.java:189-207 | root gets exactly the administrator role with no role lookup; others trigger one lookup and get a well-formed authentication, or a runtime exception with the context untouched |
| Authenticate.DoAuthenticate | src/community/security/oauth2/src/main/java/org/geoserver/security/oauth2/GeoServerOAuthAuthenticationFilter.java:167-208 | the context is either untouched or holds a well-formed authentication; only validation, disabled-user and role-lookup calls are made |
| Authenticate.NoPrincipalInstallsNothing | src/community/security/oauth2/src/main/java/org/geoserver/security/oauth2/GeoServerOAuthAuthenticationFilter.java:169-184 | a null or blank principal, or a checked exception while resolving it, leaves the context unchanged and completes normally |
| Authenticate.RootGetsAdministratorRole | src/community/security/oauth2/src/main/java/org/geoserver/security/oauth2/GeoServerOAuthAuthenticationFilter.java:190-192 | the root user gets exactly `[ADMIN_ROLE]` and `getRoles` is never called |
| Authenticate.OtherUsersGetLookedUpRoles | src/community/security/oauth2/src/main/java/org/geoserver/security/oauth2/GeoServerOAuthAuthenticationFilter.java:193-203 | any other user gets its looked-up roles in order plus the authenticated role only if absent; a failed lookup throws and installs nothing |
| FilterChain.CacheIfPossible | src/community/security/oauth2/src/main/java/org/geoserver/security/oauth2/GeoServerOAuthAuthenticationFilter.java:118-123 | the cache gets `(filter name, key) -> authentication` exactly when an authentication and a key exist and caching is allowed; otherwise it is unchanged |
| FilterChain.AuthenticateAndCache | src/community/security/oauth2/src/main/java/org/geoserver/security/oauth2/GeoServerOAuthAuthenticationFilter.java:114-123 | authentication plus caching never continues the chain, writes the cache at most once, writes nothing when it throws, and writes exactly when authentication installed an authentication, a key exists and caching is allowed |
| FilterChain.FromCache | src/community/security/oauth2/src/main/java/org/geoserver/security/oauth2/GeoServerOAuthAuthenticationFilter.java:110 | assumed behaviour of `authenticateFromCache` (called at line 110): a held authentication is kept as it is; an empty context takes whatever the cache holds for the request; the lookup is a pure read of the request and the cache (see "## Left out") |
| FilterChain.DoFilter | src/community/security/oauth2/src/main/java/org/geoserver/security/oauth2/GeoServerOAuthAuthenticationFilter.java:107-127 | every normal return continues the chain exactly once, as its last step; an authentication held at entry, or found in the cache, skips authentication, adds nothing but the chain and changes no other part of the state (an authentication from the cache is installed); otherwise the effects are those of authenticating and caching, then the chain; an exception stops before the chain and the cache |
| FilterChain.CacheWrittenExactlyWhen | src/community/security/oauth2/src/main/java/org/geoserver/security/oauth2/GeoServerOAuthAuthenticationFilter.java:110-123 | the cache is written if and only if the context was empty, authentication installed a result, a key exists and caching is allowed |
| LogoutHandler.IsSessionCookie | src/community/security/oauth2/src/main/java/org/geoserver/security/oauth2/GeoServerOAuthAuthenticationFilter.java:155 | a cookie is a session cookie exactly when its name has ten characters that fold, one by one, to the letters of `JSESSIONID`; `JSESSIONID` itself is one |
| LogoutHandler.ReissuedSessionCookies | src/community/security/oauth2/src/main/java/org/geoserver/security/oauth2/GeoServerOAuthAuthenticationFilter.java:151-162 | every emitted cookie is a session cookie (named JSESSIONID ignoring case) with max-age -1 and path "/"; there are no more of them than request cookies, and none when the request has no session cookie |
| LogoutHandler.SessionCookieCountCons | src/community/security/oauth2/src/main/java/org/geoserver/security/oauth2/GeoServerOAuthAuthenticationFilter.java:153-155 | counting session cookies from the back agrees with counting them from the front |
| LogoutHandler.ReissuedCountIsSessionCookieCount | src/community/security/oauth2/src/main/java/org/geoserver/security/oauth2/GeoServerOAuthAuthenticationFilter.java:151-162 | exactly one cookie is re-sent per session cookie of the request, by an independent count |
| LogoutHandler.EmittedCookiesComeFromRequest | src/community/security/oauth2/src/main/java/org/geoserver/security/oauth2/GeoServerOAuthAuthenticationFilter.java:151-162 | every emitted cookie is the re-sent copy (max-age -1, path "/") of a session cookie of the request |
| LogoutHandler.EverySessionCookieIsReissued | src/community/security/oauth2/src/main/java/org/geoserver/security/oauth2/GeoServerOAuthAuthenticationFilter.java:151-162 | every session cookie of the request is emitted as its re-sent copy |
| LogoutHandler.SessionOnlyInPlace | src/community/security/oauth2/src/main/java/org/geoserver/security/oauth2/GeoServerOAuthAuthenticationFilter.java:153-161 | the request's own session cookies carry max-age -1 and path "/" afterwards, since the loop changes them in place; all other cookies are untouched |
| LogoutHandler.IsBearer | src/community/security/oauth2/src/main/java/org/geoserver/security/oauth2/GeoServerOAuthAuthenticationFilter.java:137 | "Bearer" passes both the exact and the case-insensitive check; the default type "bearer" passes only the case-insensitive one; that check is equality after case folding |
| LogoutHandler.ClearBearerToken | src/community/security/oauth2/src/main/java/org/geoserver/security/oauth2/GeoServerOAuthAuthenticationFilter.java:136-147 | a bearer token is cleared and its state key's preserved state removed when a key exists; any other token leaves the client context unchanged |
| LogoutHandler.LogoutWith | src/community/security/oauth2/src/main/java/org/geoserver/security/oauth2/GeoServerOAuthAuthenticationFilter.java:130-164 | logout records the logout URI, invalidates the session, sets status 204, appends exactly the re-sent session cookies, and ends with an empty security context |
| LogoutHandler.Logout | src/community/security/oauth2/src/main/java/org/geoserver/security/oauth2/GeoServerOAuthAuthenticationFilter.java:130-164 | the held token is cleared exactly when its type equals "Bearer" |
| LogoutHandler.LogoutExample | src/community/security/oauth2/src/main/java/org/geoserver/security/oauth2/GeoServerOAuthAuthenticationFilter.java:151-162 | with cookies SESSID and JSESSIONID, only JSESSIONID is re-sent, with max-age -1 and path "/", and SESSID is untouched |
| LogoutHandler.AdoptedTokenSurvivesLogout | src/community/security/oauth2/src/main/java/org/geoserver/security/oauth2/GeoServerOAuthAuthenticationFilter.java:137 | a token adopted from `access_token` (type "bearer") is not cleared by logout |
| LogoutHandler.LogoutCorrected | src/community/security/oauth2/src/main/java/org/geoserver/security/oauth2/GeoServerOAuthAuthenticationFilter.java:137 | with the type compared ignoring case, every bearer-typed token is cleared |
| LogoutHandler.AdoptedTokenClearedByCorrectedLogout | src/community/security/oauth2/src/main/java/org/geoserver/security/oauth2/GeoServerOAuthAuthenticationFilter.java:137 | the corrected logout clears an adopted token |
| LogoutHandler.CorrectedLogoutAgreesOnBearerTokens | src/community/security/oauth2/src/main/java/org/geoserver/security/oauth2/GeoServerOAuthAuthenticationFilter.java:137 | on states without a token or with a "Bearer" token, the corrected logout equals the logout as written |
| LogoutHandler.NextRequestHasNoToken | src/community/security/oauth2/src/main/java/org/geoserver/security/oauth2/GeoServerOAuthAuthenticationFilter.java:139 | after the corrected logout, a request that supplies no token is validated with no token |

## Left out

- The servlet and Spring plumbing is not modelled: the constructor, `getAuthenticationEntryPoint` (a getter), the `super.initializeFromConfig` call, and `chain.doFilter` itself. Calling `chain.doFilter` is recorded only as the `ChainContinued` effect.
- `configureRestTemplate` (lines 280-298) only copies configuration into the REST template and token services, including a fixed token-info URL. Its one piece of logic, `parseScopes`, is modelled.
- `getPreAuthenticatedPrincipal(request)` (lines 210-219) is not modelled. It calls the two-argument form with a null response. That form is modelled, but its behaviour on a null response (the redirect would fail) is not.
- `getPreAuthenticatedPrincipalName` (lines 306-310) always returns null and decides nothing.
- Token validation, token acquisition by the REST template, the user/group service, `getRoles`, `buildDetails`, the cache key and cache lookup behind `authenticateFromCache`, and `cacheAuthentication` belong to other classes or libraries. They are arbitrary functions of the arguments the model passes them, and cannot reach the rest of the state.
- The security context is a field of the state, not a thread-local. Concurrency and isolation between requests are not modelled.
- Logging, `printStackTrace`, and the cookie comment holding `System.currentTimeMillis()` (line 159) are not modelled. The comment needs a clock.
- An `IOException` from `sendRedirect` inside `commence` is not modelled. The redirect always succeeds.
- The response's `redirect` field stands for the whole of `sendRedirect`: the 302 status it sets and the committing of the response are not modelled, so `status` keeps its value after a redirect.
- Null configuration values and a null token type are not modelled. Java would append "null" or fail with a null dereference.
- A null cookie array is not modelled. Cookies are a possibly empty sequence, and the code has no null check.
- FilterChain.FromCache: the cache key and cache lookup behind `authenticateFromCache` (line 110) are modelled as a pure read of the request and the cache. The helper is handed the filter itself, and the key computation may resolve the principal through the one-argument `getPreAuthenticatedPrincipal` (lines 210-219). The model does not cover that: the lookup cannot set the memo attributes, adopt a token, call the validator or issue a redirect. So on a cache hit `DoFilter` leaves the request untouched. On an empty context, the model orders the validator's work inside `doAuthenticate` rather than inside line 110.
- Authenticate.WithAuthenticatedRole: the result of `getRoles`, declared a `Collection<GeoServerRole>` at line 194, is modelled as a list. The claims that the looked-up roles stay a prefix in order, that the role is appended at the end, and that duplicates are kept hold only for a list. For a sorted or hashed set, `add` puts the role in the set's own order and there are no duplicates.
- `getRoles` returning an unmodifiable collection is not modelled. In Java, adding the authenticated role would then throw.
- JavaStrings.CharEqualsIgnoreCase: only the characters whose Java case mapping lands on an ASCII letter are folded, so the test is exact only when one side is ASCII. That holds for both uses in the filter: "JSESSIONID" and "Bearer".

## Findings

| source | as written | input that shows it | evidently intended | confidence | as-written member | corrected member |
|---|---|---|---|---|---|---|
| src/community/security/oauth2/src/main/java/org/geoserver/security/oauth2/GeoServerOAuthAuthenticationFilter.java:137 | logout clears the token only if `getTokenType().equals("Bearer")` | a request with `access_token=abc` and no held token adopts `new DefaultOAuth2AccessToken("abc")`, whose type is the library default "bearer"; a later logout keeps that token | any bearer token is cleared, whatever the case of its type | medium, not executed; depends on the OAuth2 library's default token type being "bearer" | LogoutHandler.AdoptedTokenSurvivesLogout | LogoutHandler.AdoptedTokenClearedByCorrectedLogout |

=== FILE: authenticate.dfy ===
/** `doAuthenticate`: turns the resolved principal into an authentication
    with roles and installs it in the security context. */
module Authenticate {
  import opened JavaStrings
  import opened OAuthTypes
  import opened PrincipalResolution

  /** The looked-up roles with the authenticated role appended when, and only
      when, it is missing; the looked-up roles keep their order. */
  function WithAuthenticatedRole(roles: seq<Role>): (r: seq<Role>)
    ensures AUTHENTICATED_ROLE in r
    ensures |r| >= |roles| && r[..|roles|] == roles
    ensures |r| == if AUTHENTICATED_ROLE in roles then |roles| else |roles| + 1
    ensures multiset(r)[AUTHENTICATED_ROLE] == if AUTHENTICATED_ROLE in roles then multiset(roles)[AUTHENTICATED_ROLE] else 1
    ensures forall x :: x != AUTHENTICATED_ROLE ==> multiset(r)[x] == multiset(roles)[x]
  {
    if AUTHENTICATED_ROLE in roles then roles
    else
      assert (roles + [AUTHENTICATED_ROLE])[..|roles|] == roles;
      roles + [AUTHENTICATED_ROLE]
  }

  /** What an installed authentication looks like: a non-blank principal;
      the root user holds exactly the administrator role, everybody else
      holds the authenticated role. */
  predicate WellFormed(a: Authentication) {
    && !IsBlank(a.principal)
    && (a.principal == ROOT_USERNAME ==> a.roles == [ADMIN_ROLE])
    && (a.principal != ROOT_USERNAME ==> AUTHENTICATED_ROLE in a.roles)
  }

  /** Builds the authentication of a non-blank principal: the root user gets
      the administrator role without any role lookup, every other user the
      looked-up roles plus the authenticated role. A failing role lookup is
      an `IOException` rethrown as a runtime exception. */
  function Install(co: Collaborators, s: State, principal: string): (r: (State, Outcome<()>))
    requires !IsBlank(principal)
    ensures Extends(s, r.0)
    ensures r.1.Returned? ==> r.0.context.Some? && WellFormed(r.0.context.value)
                              && r.0.context.value.principal == principal
                              && r.0.context.value.details == co.buildDetails(s.request)
    ensures r.1.Threw? ==> r.0.context == s.context && r.1.fault.Unchecked?
    ensures principal == ROOT_USERNAME ==> r.1.Returned? && NewEffects(s, r.0) == []
                                           && r.0.context.value.roles == [ADMIN_ROLE]
    ensures principal != ROOT_USERNAME ==> NewEffects(s, r.0) == [RolesLookedUp(principal)]
    ensures r.0 == s.(context := r.0.context, effects := r.0.effects)
  {
    if principal == ROOT_USERNAME then
      (s.(context := Some(Authentication(principal, [ADMIN_ROLE], co.buildDetails(s.request)))), Returned(()))
    else
      var looked := s.(effects := s.effects + [RolesLookedUp(principal)]);
      match co.getRoles(s.request, principal)
      case RolesFailed => (looked, Threw(Unchecked("IOException from getRoles")))
      case Roles(roles) =>
        var auth := Authentication(principal, WithAuthenticatedRole(roles), co.buildDetails(s.request));
        (looked.(context := Some(auth)), Returned(()))
  }

  predicate AuthenticationEffects(e: seq<Effect>) {
    forall i :: 0 <= i < |e| ==> AuthenticationEffect(e[i])
  }

  /** Resolving a principal, then installing it, records only authentication effects. */
  lemma ResolveThenInstallEffects(a: seq<Effect>, b: seq<Effect>)
    requires forall i :: 0 <= i < |a| ==> a[i].Validated? || a[i].DisabledUserHandled?
    requires b == [] || (|b| == 1 && b[0].RolesLookedUp?)
    ensures AuthenticationEffects(a) && AuthenticationEffects(a + b)
  {
    assert forall i :: |a| <= i < |a + b| ==> (a + b)[i] == b[i - |a|];
  }

  /** `doAuthenticate(request, response)`. Checked exceptions from principal
      resolution are swallowed and count as no principal; runtime exceptions
      propagate. */
  function DoAuthenticate(cfg: Config, co: Collaborators, s: State): (r: (State, Outcome<()>))
    ensures Extends(s, r.0)
    ensures AuthenticationEffects(NewEffects(s, r.0))
    // Either the context is untouched or it holds a well-formed authentication.
    ensures r.0.context == s.context || (r.0.context.Some? && WellFormed(r.0.context.value))
    ensures r.0.cache == s.cache && r.0.request.cookies == s.request.cookies
  {
    var (s1, o) := ResolvePrincipal(cfg, co, s);
    ResolveThenInstallEffects(NewEffects(s, s1), []);
    if o.Threw? then
      if o.fault.Checked? then (s1, Returned(())) else (s1, Threw(o.fault))
    else if o.value.None? || IsBlank(o.value.value) then (s1, Returned(()))
    else
      var (s2, o2) := Install(co, s1, o.value.value);
      NewEffectsCompose(s, s1, s2);
      ResolveThenInstallEffects(NewEffects(s, s1), NewEffects(s1, s2));
      (s2, o2)
  }

  /** A null or blank principal, or a checked exception while resolving it,
      leaves the security context as it was and completes normally. */
  lemma NoPrincipalInstallsNothing(cfg: Config, co: Collaborators, s: State)
    requires var o := ResolvePrincipal(cfg, co, s).1;
             (o.Returned? && (o.value.None? || IsBlank(o.value.value))) || (o.Threw? && o.fault.Checked?)
    ensures DoAuthenticate(cfg, co, s).0.context == s.context
    ensures DoAuthenticate(cfg, co, s).1 == Returned(())
  {
  }

  /** The root user gets exactly the administrator role and no role lookup
      takes place. */
  lemma RootGetsAdministratorRole(cfg: Config, co: Collaborators, s: State)
    requires ResolvePrincipal(cfg, co, s).1 == Returned(Some(ROOT_USERNAME))
    ensures var r := DoAuthenticate(cfg, co, s);
            && r.1 == Returned(())
            && r.0.context == Some(Authentication(ROOT_USERNAME, [ADMIN_ROLE],
                                                  co.buildDetails(ResolvePrincipal(cfg, co, s).0.request)))
            && forall i :: 0 <= i < |NewEffects(s, r.0)| ==> !NewEffects(s, r.0)[i].RolesLookedUp?
  {
    var s1 := ResolvePrincipal(cfg, co, s).0;
    var r := DoAuthenticate(cfg, co, s);
    assert !IsBlank(ROOT_USERNAME) by { assert ROOT_USERNAME[0] == 'r'; }
    assert NewEffects(s, r.0) == NewEffects(s, s1);
  }

  /** Any other principal gets its looked-up roles, in order, with the
      authenticated role added only when it is missing. */
  lemma OtherUsersGetLookedUpRoles(cfg: Config, co: Collaborators, s: State, p: string)
    requires ResolvePrincipal(cfg, co, s).1 == Returned(Some(p))
    requires !IsBlank(p) && p != ROOT_USERNAME
    ensures var s1 := ResolvePrincipal(cfg, co, s).0;
            var r := DoAuthenticate(cfg, co, s);
            match co.getRoles(s1.request, p)
            case Roles(roles) =>
              && r.1 == Returned(())
              && r.0.context.Some? && r.0.context.value.principal == p
              && r.0.context.value.roles[..|roles|] == roles
              && AUTHENTICATED_ROLE in r.0.context.value.roles
              && |r.0.context.value.roles| <= |roles| + 1
              && (AUTHENTICATED_ROLE in roles ==> r.0.context.value.roles == roles)
            case RolesFailed => r.1.Threw? && r.0.context == s.context
  {
  }
}

=== FILE: entry_point.dfy ===
/** The authorization redirect the filter's entry point issues, and the
    parsing of the configured comma-separated scope list. */
module EntryPoint {
  import opened JavaStrings
  import opened OAuthTypes

  /** `name=value` for every pair, in order, separated by `&`. */
  function QueryString(params: seq<(string, string)>): string {
    if |params| == 0 then ""
    else if |params| == 1 then params[0].0 + "=" + params[0].1
    else params[0].0 + "=" + params[0].1 + "&" + QueryString(params[1..])
  }

  /** The scope query value: the configured scopes with every comma replaced
      by `%20`; no other character is encoded. Equivalently, the comma
      separated pieces, empty ones included, joined with `%20`. */
  function EncodedScopes(scopes: string): (r: string)
    ensures ',' !in r
    ensures ',' !in scopes ==> r == scopes
    ensures r == Join(Fields(scopes, ','), "%20")
  {
    assert ',' !in scopes ==> ReplaceChar(scopes, ',', "%20") == scopes by {
      if ',' !in scopes { ReplaceCharAbsent(scopes, ',', "%20"); }
    }
    JoinFields(scopes, ',');
    ReplaceSeparator(Fields(scopes, ','), ',', "%20");
    ReplaceChar(scopes, ',', "%20")
  }

  /** The login URI built by `commence`: the authorization URI followed by
      exactly four query parameters in a fixed order. */
  function LoginUri(cfg: Config): (r: string)
    ensures r == cfg.userAuthorizationUri + "?" + QueryString([
                   ("response_type", "code"),
                   ("client_id", cfg.clientId),
                   ("scope", EncodedScopes(cfg.scopes)),
                   ("redirect_uri", cfg.redirectUri)])
  {
    var scope := EncodedScopes(cfg.scopes);
    var r := cfg.userAuthorizationUri + "?" + "response_type=code" + "&" + "client_id="
      + cfg.clientId + "&" + "scope=" + scope + "&"
      + "redirect_uri=" + cfg.redirectUri;
    QueryOfFour("response_type", "code", "client_id", cfg.clientId,
                "scope", scope, "redirect_uri", cfg.redirectUri);
    assert "response_type" + "=" + "code" == "response_type=code";
    assert "client_id" + "=" == "client_id=";
    assert "scope" + "=" == "scope=";
    assert "redirect_uri" + "=" == "redirect_uri=";
    Regroup(cfg.userAuthorizationUri, "?", "=", "&", "response_type", "code", "response_type=code",
            "client_id", "client_id=", cfg.clientId, "scope", "scope=", scope,
            "redirect_uri", "redirect_uri=", cfg.redirectUri);
    r
  }

  /** The builder's chain of appends regrouped as a query string. */
  lemma Regroup(u: string, q: string, eq: string, amp: string,
                n1: string, v1: string, p1: string,
                n2: string, p2: string, v2: string,
                n3: string, p3: string, v3: string,
                n4: string, p4: string, v4: string)
    requires p1 == n1 + eq + v1 && p2 == n2 + eq && p3 == n3 + eq && p4 == n4 + eq
    ensures u + q + p1 + amp + p2 + v2 + amp + p3 + v3 + amp + p4 + v4
         == u + q + (n1 + eq + v1 + amp + n2 + eq + v2 + amp + n3 + eq + v3 + amp + n4 + eq + v4)
  {
  }

  /** A four-parameter query string spelled out. */
  lemma QueryOfFour(n1: string, v1: string, n2: string, v2: string,
                    n3: string, v3: string, n4: string, v4: string)
    ensures QueryString([(n1, v1), (n2, v2), (n3, v3), (n4, v4)])
         == n1 + "=" + v1 + "&" + n2 + "=" + v2 + "&" + n3 + "=" + v3 + "&" + n4 + "=" + v4
  {
    var ps := [(n1, v1), (n2, v2), (n3, v3), (n4, v4)];
    var eq, amp := "=", "&";
    var a, b, c, d := n1 + eq + v1, n2 + eq + v2, n3 + eq + v3, n4 + eq + v4;
    assert ps[1..][1..][1..] == [(n4, v4)];
    assert QueryString(ps[1..][1..][1..]) == d;
    assert ps[1..][1..] == [(n3, v3), (n4, v4)];
    assert QueryString(ps[1..][1..]) == c + amp + d;
    assert ps[1..] == [(n2, v2), (n3, v3), (n4, v4)];
    assert QueryString(ps[1..]) == b + amp + (c + amp + d);
    assert QueryString(ps) == a + amp + (b + amp + (c + amp + d));
  }

  /** `parseScopes`: the configured scopes split on commas as Java's `split`
      does, so trailing empty scopes disappear. */
  function ParseScopes(commaSeparatedScopes: string): (r: seq<string>)
    ensures forall i :: 0 <= i < |r| ==> ',' !in r[i]
    ensures ',' !in commaSeparatedScopes ==> r == [commaSeparatedScopes]
    // Otherwise the comma-separated pieces without the trailing empty ones.
    ensures ',' in commaSeparatedScopes ==>
              var f := Fields(commaSeparatedScopes, ',');
              |r| <= |f| && r == f[..|r|] && (|r| == 0 || r[|r| - 1] != "")
              && forall i :: |r| <= i < |f| ==> f[i] == ""
  {
    Split(commaSeparatedScopes, ',')
  }

  /** Joining the parsed scopes with commas gives back a scope list that does
      not end with a comma. */
  lemma ParseScopesRoundTrip(scopes: string)
    requires |scopes| == 0 || scopes[|scopes| - 1] != ','
    ensures Join(ParseScopes(scopes), ",") == scopes
  {
    SplitJoinRoundTrip(scopes, ',');
  }

  /** A trailing comma after a non-empty scope list changes nothing: "read,"
      parses like "read". */
  lemma ParseScopesIgnoresTrailingComma(scopes: string)
    requires |scopes| > 0
    ensures ParseScopes(scopes + ",") == ParseScopes(scopes)
  {
    SplitIgnoresTrailingSeparator(scopes, ',');
  }

  /** Parsing a comma-join of comma-free scopes gives those scopes back, as
      long as the last one is not empty. */
  lemma ParseJoinedScopes(scopes: seq<string>)
    requires |scopes| >= 1
    requires forall i :: 0 <= i < |scopes| ==> ',' !in scopes[i]
    requires |scopes| == 1 || scopes[|scopes| - 1] != ""
    ensures ParseScopes(Join(scopes, ",")) == scopes
  {
    JoinSplitRoundTrip(scopes, ',');
  }

  /** The scope value of the login URI is the parsed scope list joined with
      `%20`: the redirect asks for the same scopes the token request does. */
  lemma EncodedScopesAreParsedScopes(scopes: string)
    requires |scopes| == 0 || scopes[|scopes| - 1] != ','
    ensures EncodedScopes(scopes) == Join(ParseScopes(scopes), "%20")
  {
    ParseScopesRoundTrip(scopes);
    ReplaceSeparator(ParseScopes(scopes), ',', "%20");
  }

  /** An example: scopes "read,write" become `scope=read%20write`. */
  lemma LoginUriExample()
    ensures LoginUri(Config("oauth2", "https://auth.example/o", "abc", "read,write",
                            "https://app.example/cb", None, Header, ""))
         == "https://auth.example/o" + "?response_type=code" + "&client_id=abc"
          + "&scope=read%20write" + "&redirect_uri=https://app.example/cb"
  {
    EncodedScopesExample();
    ExamplePieces();
    Regroup4("https://auth.example/o", "?", "response_type=code", "&", "client_id=", "abc",
             "scope=", "read%20write", "redirect_uri=", "https://app.example/cb");
  }

  /** The literal pieces of the example, each glued into one literal. */
  lemma ExamplePieces()
    ensures "?" + "response_type=code" == "?response_type=code"
    ensures "&" + "client_id=" + "abc" == "&client_id=abc"
    ensures "&" + "scope=" + "read%20write" == "&scope=read%20write"
    ensures "&" + "redirect_uri=" + "https://app.example/cb" == "&redirect_uri=https://app.example/cb"
  {
    ScopePiece();
    RedirectPiece();
  }

  lemma ScopePiece()
    ensures "&" + "scope=" + "read%20write" == "&scope=read%20write"
  {
  }

  lemma RedirectPiece()
    ensures "&" + "redirect_uri=" + "https://app.example/cb" == "&redirect_uri=https://app.example/cb"
  {
  }

  lemma Regroup4(u: string, q: string, rt: string, amp: string,
                 p2: string, v2: string, p3: string, v3: string, p4: string, v4: string)
    ensures u + q + rt + amp + p2 + v2 + amp + p3 + v3 + amp + p4 + v4
         == u + (q + rt) + (amp + p2 + v2) + (amp + p3 + v3) + (amp + p4 + v4)
  {
  }

  lemma EncodedScopesExample()
    ensures EncodedScopes("read,write") == "read%20write"
  {
    var p := ["read", "write"];
    assert p[1..] == ["write"];
    ReplaceSeparator(p, ',', "%20");
    assert Join(p, [',']) == "read,write";
    assert Join(p, "%20") == "read%20write";
  }
}

=== FILE: filter.dfy ===
/** `doFilter`: authenticate when the security context is empty, cache the
    result when possible, and always hand the request on down the chain. */
module FilterChain {
  import opened OAuthTypes
  import opened PrincipalResolution
  import opened Authenticate

  /** Writes the authentication under `(filter name, cache key)` when there
      is an authentication, a cache key, and the cacheability check agrees. */
  function CacheIfPossible(cfg: Config, co: Collaborators, s: State, key: Option<string>): (r: State)
    ensures Extends(s, r)
    ensures r == s.(cache := r.cache, effects := r.effects)
    ensures if s.context.Some? && key.Some? && co.cacheAuthentication(s.context.value, s.request)
            then NewEffects(s, r) == [CacheWritten(CacheKey(cfg.filterName, key.value))]
                 && r.cache == s.cache[CacheKey(cfg.filterName, key.value) := s.context.value]
            else NewEffects(s, r) == [] && r.cache == s.cache
  {
    if s.context.Some? && key.Some? && co.cacheAuthentication(s.context.value, s.request) then
      var k := CacheKey(cfg.filterName, key.value);
      s.(cache := s.cache[k := s.context.value], effects := s.effects + [CacheWritten(k)])
    else s
  }

  predicate NoCacheWrite(e: seq<Effect>) {
    forall i :: 0 <= i < |e| ==> !e[i].CacheWritten?
  }

  predicate AtMostOneCacheWrite(e: seq<Effect>) {
    forall i, j :: 0 <= i < |e| && 0 <= j < |e| && e[i].CacheWritten? && e[j].CacheWritten? ==> i == j
  }

  predicate NoChain(e: seq<Effect>) {
    forall i :: 0 <= i < |e| ==> e[i] != ChainContinued
  }

  lemma NoCacheWriteConcat(a: seq<Effect>, b: seq<Effect>)
    ensures NoCacheWrite(a + b) <==> NoCacheWrite(a) && NoCacheWrite(b)
  {
    if NoCacheWrite(a) && NoCacheWrite(b) {
      forall i | 0 <= i < |a + b| ensures !(a + b)[i].CacheWritten? {
        if i >= |a| { assert (a + b)[i] == b[i - |a|]; }
      }
    }
    if NoCacheWrite(a + b) {
      forall i | 0 <= i < |a| ensures !a[i].CacheWritten? {
        assert (a + b)[i] == a[i];
      }
      forall i | 0 <= i < |b| ensures !b[i].CacheWritten? {
        assert (a + b)[|a| + i] == b[i];
      }
    }
  }

  /** Appending at most one cache write to effects without any keeps at most one. */
  lemma CacheStep(a: seq<Effect>, c: seq<Effect>)
    requires NoCacheWrite(a) && NoChain(a)
    requires c == [] || (|c| == 1 && c[0].CacheWritten?)
    ensures AtMostOneCacheWrite(a + c) && NoChain(a + c)
    ensures NoCacheWrite(a + c) <==> c == []
  {
    assert forall i :: |a| <= i < |a + c| ==> (a + c)[i] == c[i - |a|];
    if c != [] {
      assert (a + c)[|a|] == c[0];
    }
  }

  /** Continuing the chain after effects that did not continue it makes it
      the single, last continuation, and adds no cache write. */
  lemma ChainStep(a: seq<Effect>)
    requires NoChain(a) && AtMostOneCacheWrite(a)
    ensures var e := a + [ChainContinued];
            && e[|e| - 1] == ChainContinued
            && (forall i :: 0 <= i < |e| - 1 ==> e[i] != ChainContinued)
            && AtMostOneCacheWrite(e)
  {
    var e := a + [ChainContinued];
    assert forall i :: 0 <= i < |a| ==> e[i] == a[i];
  }

  /** Authentication effects write no cache entry and do not continue the chain. */
  lemma AuthenticationEffectsOnly(e: seq<Effect>)
    requires AuthenticationEffects(e)
    ensures NoCacheWrite(e) && NoChain(e)
  {
  }

  /** The part of `doFilter` that runs when the context is empty:
      authenticate, then cache what was installed. The cache is written
      exactly when authentication returned normally with an authentication
      in the context, a cache key exists, and caching is allowed. */
  function AuthenticateAndCache(cfg: Config, co: Collaborators, s: State, key: Option<string>)
    : (r: (State, Outcome<()>))
    ensures Extends(s, r.0)
    ensures NoChain(NewEffects(s, r.0))
    ensures AtMostOneCacheWrite(NewEffects(s, r.0))
    ensures r.1.Threw? ==> r.0.cache == s.cache && NoCacheWrite(NewEffects(s, r.0))
    ensures var a := DoAuthenticate(cfg, co, s);
            !NoCacheWrite(NewEffects(s, r.0))
            <==> (a.1.Returned? && a.0.context.Some? && key.Some?
                  && co.cacheAuthentication(a.0.context.value, a.0.request))
  {
    var (s1, o) := DoAuthenticate(cfg, co, s);
    AuthenticationEffectsOnly(NewEffects(s, s1));
    if o.Threw? then (s1, o)
    else
      var s2 := CacheIfPossible(cfg, co, s1, key);
      NewEffectsCompose(s, s1, s2);
      CacheStep(NewEffects(s, s1), NewEffects(s1, s2));
      (s2, Returned(()))
  }

  /** `authenticateFromCache`: the request's cache key, and the security
      context afterwards. An authentication already held stays; only an
      empty context is filled from the cache. */
  function FromCache(co: Collaborators, s: State): (r: (Option<string>, Option<Authentication>))
    ensures r.0 == co.cacheLookup(s.request, s.cache).0
    ensures s.context.Some? ==> r.1 == s.context
    ensures s.context.None? ==> r.1 == co.cacheLookup(s.request, s.cache).1
  {
    var (key, cached) := co.cacheLookup(s.request, s.cache);
    (key, if s.context.Some? then s.context else cached)
  }

  /** `doFilter(request, response, chain)`. */
  function DoFilter(cfg: Config, co: Collaborators, s: State): (r: (State, Outcome<()>))
    ensures Extends(s, r.0)
    // Every normal return continues the chain exactly once, as its last step.
    ensures r.1.Returned? ==>
              var e := NewEffects(s, r.0);
              |e| >= 1 && e[|e| - 1] == ChainContinued
              && forall i :: 0 <= i < |e| - 1 ==> e[i] != ChainContinued
    // An exception stops before the chain and before any cache write.
    ensures r.1.Threw? ==> NoChain(NewEffects(s, r.0)) && r.0.cache == s.cache
    // The cache is written at most once.
    ensures AtMostOneCacheWrite(NewEffects(s, r.0))
    // An authentication already held skips authentication entirely and
    // changes nothing but the trace.
    ensures s.context.Some? ==>
              r.1.Returned? && NewEffects(s, r.0) == [ChainContinued] && r.0.context == s.context
              && r.0 == s.(context := r.0.context, effects := r.0.effects)
    // So does one found in the cache, which is installed and is the only
    // other change.
    ensures s.context.None? && co.cacheLookup(s.request, s.cache).1.Some? ==>
              r.1.Returned? && NewEffects(s, r.0) == [ChainContinued]
              && r.0.context == co.cacheLookup(s.request, s.cache).1
              && r.0 == s.(context := r.0.context, effects := r.0.effects)
    // Otherwise the effects are those of authenticating and caching, then the chain.
    ensures var (key, ctx) := FromCache(co, s);
            var a := AuthenticateAndCache(cfg, co, s.(context := ctx), key);
            ctx.None? ==> r.1 == a.1 && NewEffects(s, r.0) == NewEffects(s.(context := ctx), a.0)
                                                        + (if a.1.Returned? then [ChainContinued] else [])
  {
    var (key, ctx) := FromCache(co, s);
    var s0 := s.(context := ctx);
    if ctx.Some? then
      (s0.(effects := s0.effects + [ChainContinued]), Returned(()))
    else
      var (s1, o) := AuthenticateAndCache(cfg, co, s0, key);
      if o.Threw? then (s1, o)
      else
        var s2 := s1.(effects := s1.effects + [ChainContinued]);
        NewEffectsCompose(s0, s1, s2);
        ChainStep(NewEffects(s0, s1));
        (s2, Returned(()))
  }

  /** The cache is written exactly when authentication ran, installed an
      authentication, a cache key exists and the cacheability check agrees. */
  lemma {:induction false} CacheWrittenExactlyWhen(cfg: Config, co: Collaborators, s: State)
    ensures var (key, ctx) := FromCache(co, s);
            var a := DoAuthenticate(cfg, co, s.(context := ctx));
            var r := DoFilter(cfg, co, s);
            !NoCacheWrite(NewEffects(s, r.0))
            <==> (ctx.None? && a.1.Returned? && a.0.context.Some? && key.Some?
                  && co.cacheAuthentication(a.0.context.value, a.0.request))
  {
    var (key, ctx) := FromCache(co, s);
    var r := DoFilter(cfg, co, s);
    if ctx.None? {
      var aac := AuthenticateAndCache(cfg, co, s.(context := ctx), key);
      NoCacheWriteConcat(NewEffects(s.(context := ctx), aac.0), if aac.1.Returned? then [ChainContinued] else []);
    } else {
      assert NewEffects(s, r.0)[0] == ChainContinued;
    }
  }
}

=== FILE: java_strings.dfy ===
/** The few `java.lang.String` operations the OAuth2 filter depends on, with
    Java's semantics written out: `trim().length() == 0`, `replace` of a
    one-character target, `split` on a one-character separator (trailing
    empty strings dropped) and `equalsIgnoreCase`. */
module JavaStrings {

  /** `s` without its leading characters up to U+0020. */
  function TrimStart(s: string): (r: string)
    ensures |r| <= |s| && r == s[|s| - |r|..]
    ensures |r| > 0 ==> r[0] > ' '
    ensures forall i :: 0 <= i < |s| - |r| ==> s[i] <= ' '
  {
    if |s| > 0 && s[0] <= ' ' then TrimStart(s[1..]) else s
  }

  /** `s` without its trailing characters up to U+0020. */
  function TrimEnd(s: string): (r: string)
    ensures |r| <= |s| && r == s[..|r|]
    ensures |r| > 0 ==> r[|r| - 1] > ' '
    ensures forall i :: |r| <= i < |s| ==> s[i] <= ' '
  {
    if |s| > 0 && s[|s| - 1] <= ' ' then TrimEnd(s[..|s| - 1]) else s
  }

  /** `s.trim()`: both ends stripped of characters up to U+0020. */
  function Trim(s: string): (r: string)
    ensures |r| <= |s|
    ensures |r| > 0 ==> r[0] > ' ' && r[|r| - 1] > ' '
  {
    TrimEnd(TrimStart(s))
  }

  /** `s.trim().length() == 0`, decided character by character: only
      characters up to U+0020 occur (`BlankIffTrimEmpty`). */
  predicate IsBlank(s: string) {
    forall i :: 0 <= i < |s| ==> s[i] <= ' '
  }

  /** `trim` keeps the contiguous slice of its input that starts after the
      `k` leading characters `TrimStart` cuts. */
  lemma TrimValue(s: string, k: nat)
    requires k == |s| - |TrimStart(s)|
    ensures k + |Trim(s)| <= |s|
    ensures Trim(s) == s[k..k + |Trim(s)|]
  {
    var t := TrimStart(s);
    assert t == s[k..];
    var r := TrimEnd(t);
    assert r == t[..|r|];
    SliceOfSuffix(s, t, r, k);
    assert Trim(s) == r;
  }

  /** What `trim` cuts on either side of the kept slice is characters up to
      U+0020 only. */
  lemma TrimCutsOnlyBlanks(s: string, k: nat)
    requires k == |s| - |TrimStart(s)|
    ensures forall i :: 0 <= i < k ==> s[i] <= ' '
    ensures forall i :: k + |Trim(s)| <= i < |s| ==> s[i] <= ' '
  {
    var t := TrimStart(s);
    BlankTailOfSuffix(s, t, TrimEnd(t), k);
  }

  /** A prefix `r` of the suffix `t == s[k..]` is the slice `s[k..k + |r|]`. */
  lemma SliceOfSuffix(s: string, t: string, r: string, k: nat)
    requires k <= |s| && t == s[k..]
    requires |r| <= |t| && r == t[..|r|]
    ensures k + |r| <= |s| && r == s[k..k + |r|]
  {
  }

  /** Blanks after the prefix `r` of the suffix `t == s[k..]` are blanks of `s`. */
  lemma BlankTailOfSuffix(s: string, t: string, r: string, k: nat)
    requires k <= |s| && t == s[k..] && |r| <= |t|
    requires forall i :: |r| <= i < |t| ==> t[i] <= ' '
    ensures forall i :: k + |r| <= i < |s| ==> s[i] <= ' '
  {
    forall i | k + |r| <= i < |s| ensures s[i] <= ' ' {
      assert s[i] == t[i - k];
    }
  }

  /** The character test agrees with Java's: a string is blank exactly when
      `trim` leaves nothing of it. */
  lemma BlankIffTrimEmpty(s: string)
    ensures IsBlank(s) <==> |Trim(s)| == 0
  {
  }

  /** `String.join(sep, parts)`. */
  function Join(parts: seq<string>, sep: string): string
  {
    if |parts| == 0 then ""
    else if |parts| == 1 then parts[0]
    else parts[0] + sep + Join(parts[1..], sep)
  }

  /** `s.replace(String.valueOf(c), rep)`: every occurrence of `c`, scanned
      left to right, becomes `rep`; all other characters are kept in order. */
  function ReplaceChar(s: string, c: char, rep: string): (r: string)
    ensures c !in rep ==> c !in r
  {
    if |s| == 0 then ""
    else
      assert s == [s[0]] + s[1..];
      (if s[0] == c then rep else [s[0]]) + ReplaceChar(s[1..], c, rep)
  }

  /** The pieces of `s` between occurrences of `c`, empty pieces included
      (`FieldsCount`: always one more piece than there are separators). */
  function Fields(s: string, c: char): (r: seq<string>)
    ensures |r| >= 1
    ensures forall i :: 0 <= i < |r| ==> c !in r[i]
    decreases |s|
  {
    if |s| == 0 then [""]
    else
      assert s == [s[0]] + s[1..];
      var rest := Fields(s[1..], c);
      if s[0] == c then [""] + rest
      else [[s[0]] + rest[0]] + rest[1..]
  }

  /** Removes the empty strings at the end of `parts` (what `split` with
      limit 0 does to its result list). */
  function DropTrailingEmpty(parts: seq<string>): (r: seq<string>)
    ensures |r| <= |parts| && r == parts[..|r|]
    ensures |r| > 0 ==> r[|r| - 1] != ""
    ensures forall i :: |r| <= i < |parts| ==> parts[i] == ""
  {
    if |parts| == 0 then []
    else if parts[|parts| - 1] == "" then DropTrailingEmpty(parts[..|parts| - 1])
    else parts
  }

  /** `s.split(String.valueOf(c))` for a separator that is not a regular
      expression metacharacter: with no separator present the result is the
      whole string (even when it is empty); otherwise it is the fields with
      the trailing empty ones removed. */
  function Split(s: string, c: char): (r: seq<string>)
    ensures forall i :: 0 <= i < |r| ==> c !in r[i]
    ensures c !in s ==> r == [s]
    ensures |r| <= multiset(s)[c] + 1
    // With a separator present: the fields with exactly the trailing empty ones dropped.
    ensures c in s ==> |r| <= |Fields(s, c)| && r == Fields(s, c)[..|r|]
                       && (|r| == 0 || r[|r| - 1] != "")
                       && forall i :: |r| <= i < |Fields(s, c)| ==> Fields(s, c)[i] == ""
  {
    if c !in s then [s]
    else
      FieldsCount(s, c);
      DropTrailingEmpty(Fields(s, c))
  }

  /** `Character.toUpperCase` on the characters whose upper case is an ASCII
      letter; every other character is returned as it is. */
  function UpperCase(ch: char): char {
    if 'a' <= ch <= 'z' then (ch as int - 32) as char
    else if ch == '\U{0131}' then 'I'   // dotless i
    else if ch == '\U{017F}' then 'S'   // long s
    else ch
  }

  /** `Character.toLowerCase` on the characters whose lower case is an ASCII
      letter; every other character is returned as it is. */
  function LowerCase(ch: char): char {
    if 'A' <= ch <= 'Z' then (ch as int + 32) as char
    else if ch == '\U{0130}' then 'i'   // capital I with dot above
    else if ch == '\U{212A}' then 'k'   // Kelvin sign
    else ch
  }

  /** The per-character test of `String.equalsIgnoreCase`. Exact whenever one
      of the two characters is ASCII. */
  predicate CharEqualsIgnoreCase(a: char, b: char) {
    a == b || UpperCase(a) == UpperCase(b) || LowerCase(UpperCase(a)) == LowerCase(UpperCase(b))
  }

  /** `a.equalsIgnoreCase(b)`: equal lengths and case-insensitively equal
      characters position by position. */
  predicate EqualsIgnoreCase(a: string, b: string): (r: bool)
    ensures a == b ==> r
    ensures r ==> |a| == |b|
  {
    |a| == |b| && forall i :: 0 <= i < |a| ==> CharEqualsIgnoreCase(a[i], b[i])
  }

  /** The ASCII character that `equalsIgnoreCase` identifies `ch` with when
      it meets an ASCII character: ASCII letters in lower case, the dotless
      and dotted i, the long s and the Kelvin sign as their ASCII letters,
      everything else itself. */
  function CaseFold(ch: char): char {
    if 'A' <= ch <= 'Z' then (ch as int + 32) as char
    else if ch == '\U{0131}' || ch == '\U{0130}' then 'i'
    else if ch == '\U{017F}' then 's'
    else if ch == '\U{212A}' then 'k'
    else ch
  }

  /** Against an ASCII character, the per-character test is equality after
      folding. */
  lemma CharEqualsIgnoreCaseAscii(x: char, y: char)
    requires y as int < 128
    ensures CharEqualsIgnoreCase(x, y) <==> CaseFold(x) == CaseFold(y)
  {
  }

  /** Against an ASCII string, `equalsIgnoreCase` is equality after folding. */
  lemma EqualsIgnoreCaseAscii(a: string, b: string)
    requires forall i :: 0 <= i < |b| ==> b[i] as int < 128
    ensures EqualsIgnoreCase(a, b)
            <==> |a| == |b| && forall i :: 0 <= i < |a| ==> CaseFold(a[i]) == CaseFold(b[i])
  {
    forall i | 0 <= i < |a| && i < |b| {
      CharEqualsIgnoreCaseAscii(a[i], b[i]);
    }
  }

  /** `equalsIgnoreCase` does not depend on the order of its arguments. */
  lemma EqualsIgnoreCaseSymmetric(a: string, b: string)
    ensures EqualsIgnoreCase(a, b) <==> EqualsIgnoreCase(b, a)
  {
  }

  /** There is exactly one more field than there are separators. */
  lemma {:induction false} FieldsCount(s: string, c: char)
    ensures |Fields(s, c)| == multiset(s)[c] + 1
    decreases |s|
  {
    if |s| > 0 {
      FieldsCount(s[1..], c);
      assert s == [s[0]] + s[1..];
      assert multiset(s) == multiset{s[0]} + multiset(s[1..]);
    }
  }

  /** Prepending a character to the first piece prepends it to the join. */
  lemma JoinConsFirst(ch: char, head: string, tail: seq<string>, sep: string)
    ensures Join([[ch] + head] + tail, sep) == [ch] + Join([head] + tail, sep)
  {
    if |tail| > 0 {
      assert ([[ch] + head] + tail)[1..] == tail;
      assert ([head] + tail)[1..] == tail;
    }
  }

  /** Splitting and re-joining with the same separator, keeping every empty
      piece, gives back the input. */
  lemma {:induction false} JoinFields(s: string, c: char)
    ensures Join(Fields(s, c), [c]) == s
    decreases |s|
  {
    if |s| > 0 {
      var rest := Fields(s[1..], c);
      JoinFields(s[1..], c);
      assert s == [s[0]] + s[1..];
      if s[0] == c {
        assert Fields(s, c) == [""] + rest;
        assert ([""] + rest)[1..] == rest;
      } else {
        assert Fields(s, c) == [[s[0]] + rest[0]] + rest[1..];
        assert rest == [rest[0]] + rest[1..];
        JoinConsFirst(s[0], rest[0], rest[1..], [c]);
      }
    }
  }

  /** A prefix free of the separator extends the first field. */
  lemma {:induction false} FieldsOfPrefix(x: string, y: string, c: char)
    requires c !in x
    ensures Fields(x + y, c) == [x + Fields(y, c)[0]] + Fields(y, c)[1..]
    decreases |x|
  {
    if |x| > 0 {
      assert (x + y)[1..] == x[1..] + y;
      assert (x + y)[0] == x[0];
      FieldsOfPrefix(x[1..], y, c);
      assert [x[0]] + (x[1..] + Fields(y, c)[0]) == x + Fields(y, c)[0];
    } else {
      var f := Fields(y, c);
      assert x + y == y;
      assert x + f[0] == f[0];
      assert f == [f[0]] + f[1..];
    }
  }

  /** Separator-free pieces are recovered from their join, empty pieces
      included. */
  lemma {:induction false} FieldsOfJoin(parts: seq<string>, c: char)
    requires |parts| >= 1
    requires forall i :: 0 <= i < |parts| ==> c !in parts[i]
    ensures Fields(Join(parts, [c]), c) == parts
    decreases |parts|
  {
    if |parts| == 1 {
      FieldsOfPrefix(parts[0], "", c);
      assert parts[0] + "" == parts[0];
    } else {
      var tail := Join(parts[1..], [c]);
      FieldsOfJoin(parts[1..], c);
      assert Join(parts, [c]) == parts[0] + ([c] + tail);
      var ct := [c] + tail;
      assert ct[0] == c && ct[1..] == tail;
      assert Fields(ct, c) == [""] + parts[1..];
      FieldsOfPrefix(parts[0], ct, c);
      assert parts[0] + "" == parts[0];
      assert parts == [parts[0]] + parts[1..];
    }
  }

  /** When `s` does not end with the separator its last field is not empty. */
  lemma {:induction false} LastFieldNonEmpty(s: string, c: char)
    requires |s| > 0 && s[|s| - 1] != c
    ensures var f := Fields(s, c); f[|f| - 1] != ""
    decreases |s|
  {
    if |s| > 1 {
      LastFieldNonEmpty(s[1..], c);
    }
  }

  /** Joining the result of `split` gives back every input that does not end
      with the separator; only trailing separators are ever lost. */
  lemma SplitJoinRoundTrip(s: string, c: char)
    requires |s| == 0 || s[|s| - 1] != c
    ensures Join(Split(s, c), [c]) == s
  {
    if c in s {
      LastFieldNonEmpty(s, c);
      JoinFields(s, c);
    }
  }

  /** A trailing separator adds one empty field. */
  lemma {:induction false} FieldsAppendSeparator(s: string, c: char)
    ensures Fields(s + [c], c) == Fields(s, c) + [""]
    decreases |s|
  {
    if |s| == 0 {
      assert [c][1..] == "";
    } else {
      var rest := Fields(s[1..], c);
      assert (s + [c])[1..] == s[1..] + [c];
      assert (s + [c])[0] == s[0];
      FieldsAppendSeparator(s[1..], c);
      if s[0] != c {
        assert (rest + [""])[0] == rest[0];
        assert (rest + [""])[1..] == rest[1..] + [""];
      }
    }
  }

  /** `split` ignores a trailing separator after a non-empty string: the
      empty last field it would add is dropped again. */
  lemma SplitIgnoresTrailingSeparator(s: string, c: char)
    requires |s| > 0
    ensures Split(s + [c], c) == Split(s, c)
  {
    var f := Fields(s, c);
    FieldsAppendSeparator(s, c);
    assert c in s + [c] by { assert (s + [c])[|s|] == c; }
    assert (f + [""])[..|f|] == f;
    assert DropTrailingEmpty(f + [""]) == DropTrailingEmpty(f);
    if c !in s {
      assert f == [s] by { FieldsOfPrefix(s, "", c); assert s + "" == s; }
    }
  }

  /** `split` recovers separator-free pieces from their join, provided the
      last piece is not empty (an empty last piece is dropped) or there is
      only one piece. */
  lemma JoinSplitRoundTrip(parts: seq<string>, c: char)
    requires |parts| >= 1
    requires forall i :: 0 <= i < |parts| ==> c !in parts[i]
    requires |parts| == 1 || parts[|parts| - 1] != ""
    ensures Split(Join(parts, [c]), c) == parts
  {
    FieldsOfJoin(parts, c);
    if |parts| == 1 {
      assert Join(parts, [c]) == parts[0];
    }
  }

  /** `replace` leaves a string without the target unchanged. */
  lemma {:induction false} ReplaceCharAbsent(s: string, c: char, rep: string)
    requires c !in s
    ensures ReplaceChar(s, c, rep) == s
    decreases |s|
  {
    if |s| > 0 {
      assert s[0] != c && c !in s[1..];
      ReplaceCharAbsent(s[1..], c, rep);
    }
  }

  /** `replace` distributes over concatenation. */
  lemma {:induction false} ReplaceCharAppend(a: string, b: string, c: char, rep: string)
    ensures ReplaceChar(a + b, c, rep) == ReplaceChar(a, c, rep) + ReplaceChar(b, c, rep)
    decreases |a|
  {
    if |a| == 0 {
      assert a + b == b;
    } else {
      assert (a + b)[1..] == a[1..] + b;
      assert (a + b)[0] == a[0];
      ReplaceCharAppend(a[1..], b, c, rep);
    }
  }

  /** Replacing the separator of a join re-joins the same pieces with the
      replacement. */
  lemma {:induction false} ReplaceSeparator(parts: seq<string>, c: char, rep: string)
    requires forall i :: 0 <= i < |parts| ==> c !in parts[i]
    ensures ReplaceChar(Join(parts, [c]), c, rep) == Join(parts, rep)
    decreases |parts|
  {
    if |parts| == 1 {
      ReplaceCharAbsent(parts[0], c, rep);
    } else if |parts| > 1 {
      assert c !in parts[0];
      ReplaceSeparator(parts[1..], c, rep);
      ReplaceSeparatorCons(parts[0], parts[1..], c, rep);
      assert [parts[0]] + parts[1..] == parts;
    }
  }

  /** One step of `ReplaceSeparator`: a separator-free first piece. */
  lemma ReplaceSeparatorCons(head: string, rest: seq<string>, c: char, rep: string)
    requires c !in head && |rest| >= 1
    requires ReplaceChar(Join(rest, [c]), c, rep) == Join(rest, rep)
    ensures ReplaceChar(Join([head] + rest, [c]), c, rep) == Join([head] + rest, rep)
  {
    var tail := Join(rest, [c]);
    assert ([head] + rest)[1..] == rest;
    ReplaceCharAppend(head, [c] + tail, c, rep);
    ReplaceCharAppend([c], tail, c, rep);
    assert [c][1..] == "";
    ReplaceCharAbsent(head, c, rep);
    calc {
      ReplaceChar(Join([head] + rest, [c]), c, rep);
      { assert Join([head] + rest, [c]) == head + ([c] + tail); }
      ReplaceChar(head + ([c] + tail), c, rep);
      ReplaceChar(head, c, rep) + ReplaceChar([c] + tail, c, rep);
      head + (rep + Join(rest, rep));
    }
  }
}

=== FILE: logout.dfy ===
/** `logout`: forget a bearer token and its preserved redirect state,
    invalidate the session, answer 204, re-send the session cookies with a
    negative max-age and clear the security context. A negative max-age
    makes a cookie last until the browser exits; it does not delete it. */
module LogoutHandler {
  import opened JavaStrings
  import opened OAuthTypes
  import PrincipalResolution

  /** A cookie named `JSESSIONID`, compared ignoring case: ten characters,
      each folding to the corresponding letter of `jsessionid`. */
  predicate IsSessionCookie(c: Cookie): (r: bool)
    ensures r <==> |c.name| == |SESSION_COOKIE_NAME|
                   && forall i :: 0 <= i < |c.name| ==> CaseFold(c.name[i]) == CaseFold(SESSION_COOKIE_NAME[i])
    ensures c.name == SESSION_COOKIE_NAME ==> r
  {
    SessionCookieNameIsAscii();
    EqualsIgnoreCaseAscii(c.name, SESSION_COOKIE_NAME);
    EqualsIgnoreCase(c.name, SESSION_COOKIE_NAME)
  }

  lemma SessionCookieNameIsAscii()
    ensures forall i :: 0 <= i < |SESSION_COOKIE_NAME| ==> SESSION_COOKIE_NAME[i] as int < 128
  {
  }

  /** The cookie as re-sent: same name and value, max-age -1 (kept until
      the browser exits), path "/". */
  function SessionOnly(c: Cookie): Cookie {
    c.(maxAge := NEGATIVE_MAX_AGE, path := Some("/"))
  }

  /** The cookies `logout` adds to the response: one re-sent copy of each
      session cookie of the request, in request order, and nothing else. */
  function ReissuedSessionCookies(cookies: seq<Cookie>): (r: seq<Cookie>)
    ensures |r| <= |cookies|
    ensures forall i :: 0 <= i < |r| ==>
              IsSessionCookie(r[i]) && r[i].maxAge == NEGATIVE_MAX_AGE && r[i].path == Some("/")
    ensures (forall j :: 0 <= j < |cookies| ==> !IsSessionCookie(cookies[j])) ==> r == []
  {
    if |cookies| == 0 then []
    else
      var rest := ReissuedSessionCookies(cookies[1..]);
      assert forall j :: 1 <= j < |cookies| ==> cookies[j] == cookies[1..][j - 1];
      if IsSessionCookie(cookies[0]) then [SessionOnly(cookies[0])] + rest else rest
  }

  /** How many of `cookies` are session cookies, counted from the back. */
  function SessionCookieCount(cookies: seq<Cookie>): nat {
    if |cookies| == 0 then 0
    else SessionCookieCount(cookies[..|cookies| - 1]) + (if IsSessionCookie(cookies[|cookies| - 1]) then 1 else 0)
  }

  /** Counting from the back agrees with counting from the front. */
  lemma {:induction false} SessionCookieCountCons(cookies: seq<Cookie>)
    requires |cookies| > 0
    ensures SessionCookieCount(cookies) ==
              (if IsSessionCookie(cookies[0]) then 1 else 0) + SessionCookieCount(cookies[1..])
  {
    if |cookies| > 1 {
      var init := cookies[..|cookies| - 1];
      SessionCookieCountCons(init);
      assert init[1..] == cookies[1..][..|cookies[1..]| - 1];
    }
  }

  /** Exactly one cookie is re-sent per session cookie of the request. */
  lemma {:induction false} ReissuedCountIsSessionCookieCount(cookies: seq<Cookie>)
    ensures |ReissuedSessionCookies(cookies)| == SessionCookieCount(cookies)
  {
    if |cookies| > 0 {
      ReissuedCountIsSessionCookieCount(cookies[1..]);
      SessionCookieCountCons(cookies);
    }
  }

  /** `c` is the re-sent copy of a session cookie among `cookies`. */
  predicate EmittedFrom(c: Cookie, cookies: seq<Cookie>) {
    exists j :: 0 <= j < |cookies| && IsSessionCookie(cookies[j]) && c == SessionOnly(cookies[j])
  }

  /** Every emitted cookie is the re-sent copy of a session cookie of the request. */
  lemma {:induction false} EmittedCookiesComeFromRequest(cookies: seq<Cookie>)
    ensures forall i :: 0 <= i < |ReissuedSessionCookies(cookies)| ==>
              EmittedFrom(ReissuedSessionCookies(cookies)[i], cookies)
  {
    if |cookies| > 0 {
      var tail := cookies[1..];
      EmittedCookiesComeFromRequest(tail);
      var rest := ReissuedSessionCookies(tail);
      var r := ReissuedSessionCookies(cookies);
      forall i | 0 <= i < |r| ensures EmittedFrom(r[i], cookies) {
        if IsSessionCookie(cookies[0]) && i == 0 {
          assert r[0] == SessionOnly(cookies[0]);
        } else {
          var k := if IsSessionCookie(cookies[0]) then i - 1 else i;
          assert r[i] == rest[k];
          assert EmittedFrom(rest[k], tail);
          var j :| 0 <= j < |tail| && IsSessionCookie(tail[j]) && rest[k] == SessionOnly(tail[j]);
          assert cookies[j + 1] == tail[j];
        }
      }
    }
  }

  /** Every session cookie of the request is re-sent. */
  lemma {:induction false} EverySessionCookieIsReissued(cookies: seq<Cookie>)
    ensures forall j :: 0 <= j < |cookies| && IsSessionCookie(cookies[j]) ==>
              SessionOnly(cookies[j]) in ReissuedSessionCookies(cookies)
  {
    if |cookies| > 0 {
      var tail := cookies[1..];
      EverySessionCookieIsReissued(tail);
      assert forall j :: 1 <= j < |cookies| ==> cookies[j] == tail[j - 1];
    }
  }

  /** The request's own cookies after the loop: the loop changes the session
      cookies it re-sends in place, so they carry the new max-age and path too. */
  function SessionOnlyInPlace(cookies: seq<Cookie>): (r: seq<Cookie>)
    ensures |r| == |cookies|
    ensures forall i :: 0 <= i < |r| && !IsSessionCookie(cookies[i]) ==> r[i] == cookies[i]
    ensures forall i :: 0 <= i < |r| && IsSessionCookie(cookies[i]) ==> r[i] == SessionOnly(cookies[i])
  {
    seq(|cookies|, i requires 0 <= i < |cookies| => if IsSessionCookie(cookies[i]) then SessionOnly(cookies[i]) else cookies[i])
  }

  /** How `logout` decides that the held token is a bearer token. */
  datatype BearerCheck =
    | ExactType        // `getTokenType().equals(BEARER_TYPE)`, as the filter does
    | TypeIgnoringCase // `getTokenType().equalsIgnoreCase(BEARER_TYPE)`

  predicate IsBearer(check: BearerCheck, t: AccessToken): (r: bool)
    // "Bearer" passes both checks; the default type "bearer" only the case-insensitive one.
    ensures t.tokenType == BEARER_TYPE ==> r
    ensures t.tokenType == DEFAULT_TOKEN_TYPE ==> (r <==> check.TypeIgnoringCase?)
    ensures check.TypeIgnoringCase? ==>
              (r <==> |t.tokenType| == |BEARER_TYPE|
                      && forall i :: 0 <= i < |t.tokenType| ==> CaseFold(t.tokenType[i]) == CaseFold(BEARER_TYPE[i]))
  {
    BearerTypeFacts();
    EqualsIgnoreCaseAscii(t.tokenType, BEARER_TYPE);
    match check
    case ExactType => t.tokenType == BEARER_TYPE
    case TypeIgnoringCase => EqualsIgnoreCase(t.tokenType, BEARER_TYPE)
  }

  /** Forgets a bearer token and, when the pending token request has a state
      key, the state preserved under that key; any other token stays. */
  function ClearBearerToken(check: BearerCheck, client: ClientContext): (r: ClientContext)
    ensures r.tokenRequest == client.tokenRequest
    ensures client.accessToken.Some? && IsBearer(check, client.accessToken.value) ==>
              r.accessToken.None?
              && r.preservedState == (if client.tokenRequest.Some? && client.tokenRequest.value.stateKey.Some?
                                      then client.preservedState - {client.tokenRequest.value.stateKey.value}
                                      else client.preservedState)
    ensures !(client.accessToken.Some? && IsBearer(check, client.accessToken.value)) ==> r == client
    ensures r.preservedState.Keys <= client.preservedState.Keys
  {
    if client.accessToken.Some? && IsBearer(check, client.accessToken.value) then
      var cleared := client.(accessToken := None);
      if client.tokenRequest.Some? && client.tokenRequest.value.stateKey.Some? then
        cleared.(preservedState := cleared.preservedState - {client.tokenRequest.value.stateKey.value})
      else cleared
    else client
  }

  /** The steps of `logout` in order: record the logout redirect target,
      forget a bearer token, invalidate the session, answer 204, re-emit the
      session cookies with max-age -1, clear the security context. */
  function LogoutWith(check: BearerCheck, cfg: Config, s: State): (r: State)
    ensures r.request.attributes == s.request.attributes.(logoutRedirect := cfg.logoutUri)
    ensures r.client == ClearBearerToken(check, s.client)
    ensures r.request.sessionInvalidated
    ensures r.response.status == SC_NO_CONTENT
    ensures r.response.redirect == s.response.redirect
    ensures |r.response.cookies| >= |s.response.cookies|
    ensures r.response.cookies[..|s.response.cookies|] == s.response.cookies
    ensures r.response.cookies[|s.response.cookies|..] == ReissuedSessionCookies(s.request.cookies)
    ensures r.request.cookies == SessionOnlyInPlace(s.request.cookies)
    ensures r.request.accessTokenParam == s.request.accessTokenParam
    ensures r.context.None?
    ensures r.cache == s.cache && r.effects == s.effects
  {
    var emitted := ReissuedSessionCookies(s.request.cookies);
    var request := s.request.(attributes := s.request.attributes.(logoutRedirect := cfg.logoutUri),
                              sessionInvalidated := true,
                              cookies := SessionOnlyInPlace(s.request.cookies));
    var response := s.response.(status := SC_NO_CONTENT, cookies := s.response.cookies + emitted);
    assert (s.response.cookies + emitted)[|s.response.cookies|..] == emitted;
    s.(request := request, response := response, client := ClearBearerToken(check, s.client), context := None)
  }

  /** `logout(request, response, authentication)` as written. */
  function Logout(cfg: Config, s: State): (r: State)
    ensures r == LogoutWith(ExactType, cfg, s)
    ensures s.client.accessToken.Some? && s.client.accessToken.value.tokenType == BEARER_TYPE ==>
              r.client.accessToken.None?
    ensures s.client.accessToken.Some? && s.client.accessToken.value.tokenType != BEARER_TYPE ==>
              r.client == s.client
  {
    LogoutWith(ExactType, cfg, s)
  }

  /** `logout` with the token type compared ignoring case. */
  function LogoutCorrected(cfg: Config, s: State): (r: State)
    ensures r == LogoutWith(TypeIgnoringCase, cfg, s)
    ensures s.client.accessToken.Some? && EqualsIgnoreCase(s.client.accessToken.value.tokenType, BEARER_TYPE) ==>
              r.client.accessToken.None?
  {
    LogoutWith(TypeIgnoringCase, cfg, s)
  }

  /** "Bearer" is ASCII, and "bearer" differs from it but matches it ignoring case. */
  lemma BearerTypeFacts()
    ensures forall i :: 0 <= i < |BEARER_TYPE| ==> BEARER_TYPE[i] as int < 128
    ensures DEFAULT_TOKEN_TYPE != BEARER_TYPE
    ensures EqualsIgnoreCase(DEFAULT_TOKEN_TYPE, BEARER_TYPE)
  {
    assert DEFAULT_TOKEN_TYPE[0] != BEARER_TYPE[0];
    assert |DEFAULT_TOKEN_TYPE| == |BEARER_TYPE| == 6;
    assert CharEqualsIgnoreCase(DEFAULT_TOKEN_TYPE[0], BEARER_TYPE[0]);
  }

  /** A token adopted from the `access_token` parameter carries the default
      type "bearer", which is not equal to "Bearer": the filter's logout
      keeps it. */
  lemma AdoptedTokenSurvivesLogout(cfg: Config, s: State, value: string)
    requires s.client.accessToken.None?
    ensures var adopted := s.(client := PrincipalResolution.AdoptAccessToken(s.client, Some(value)));
            Logout(cfg, adopted).client.accessToken == Some(AccessToken(value, DEFAULT_TOKEN_TYPE))
  {
    assert DEFAULT_TOKEN_TYPE != BEARER_TYPE by { assert DEFAULT_TOKEN_TYPE[0] != BEARER_TYPE[0]; }
  }

  /** With the type compared ignoring case, an adopted token is cleared. */
  lemma AdoptedTokenClearedByCorrectedLogout(cfg: Config, s: State, value: string)
    requires s.client.accessToken.None?
    ensures var adopted := s.(client := PrincipalResolution.AdoptAccessToken(s.client, Some(value)));
            LogoutCorrected(cfg, adopted).client.accessToken.None?
  {
    assert EqualsIgnoreCase(DEFAULT_TOKEN_TYPE, BEARER_TYPE) by {
      assert |DEFAULT_TOKEN_TYPE| == |BEARER_TYPE| == 6;
      assert CharEqualsIgnoreCase(DEFAULT_TOKEN_TYPE[0], BEARER_TYPE[0]);
    }
  }

  /** The corrected logout treats every token the filter's logout clears in
      the same way. */
  lemma CorrectedLogoutAgreesOnBearerTokens(cfg: Config, s: State)
    requires s.client.accessToken.None? || s.client.accessToken.value.tokenType == BEARER_TYPE
    ensures LogoutCorrected(cfg, s) == Logout(cfg, s)
  {
    if s.client.accessToken.Some? {
      var t := s.client.accessToken.value.tokenType;
      assert EqualsIgnoreCase(t, BEARER_TYPE) by {
        forall i | 0 <= i < |t| ensures CharEqualsIgnoreCase(t[i], BEARER_TYPE[i]) { }
      }
    }
  }

  /** After the corrected logout clears a bearer token, whatever the case of
      its type, a request that supplies none reaches the validator without
      a token. */
  lemma NextRequestHasNoToken(cfg: Config, co: Collaborators, s: State, next: Request)
    requires s.client.accessToken.Some? && EqualsIgnoreCase(s.client.accessToken.value.tokenType, BEARER_TYPE)
    requires next.accessTokenParam.None? && !next.attributes.alreadyRetrieved
    ensures var after := LogoutCorrected(cfg, s).(request := next);
            var r := PrincipalResolution.ResolvePrincipal(cfg, co, after);
            PrincipalResolution.NewEffects(after, r.0)[0] == Validated(None)
  {
  }

  /** An example: of the cookies `SESSID` and `JSESSIONID` only the second
      is re-sent, with max-age -1 and path "/", and the first is left alone. */
  lemma LogoutExample(cfg: Config, s: State)
    requires s.request.cookies == [Cookie("SESSID", "x", 3600, None), Cookie("JSESSIONID", "y", 3600, None)]
    requires s.response.cookies == []
    ensures var r := Logout(cfg, s);
            && r.response.cookies == [Cookie("JSESSIONID", "y", NEGATIVE_MAX_AGE, Some("/"))]
            && r.request.cookies[0] == Cookie("SESSID", "x", 3600, None)
            && r.response.status == SC_NO_CONTENT && r.request.sessionInvalidated && r.context.None?
  {
    var cs := s.request.cookies;
    assert !IsSessionCookie(cs[0]) by { assert |cs[0].name| == 6; }
    assert IsSessionCookie(cs[1]) by {
      forall i | 0 <= i < |cs[1].name| ensures CharEqualsIgnoreCase(cs[1].name[i], SESSION_COOKIE_NAME[i]) { }
    }
    assert cs[1..] == [cs[1]];
    assert cs[1..][1..] == [];
    assert ReissuedSessionCookies(cs) == [SessionOnly(cs[1])];
  }
}

=== FILE: oauth_types.dfy ===
/** The state the OAuth2 pre-authentication filter reads and writes, as
    immutable values: the servlet request and response, the OAuth2 client
    context that holds the access token, the thread-bound security context,
    the authentication cache, and a trace of the calls the filter makes into
    collaborators it does not own. */
module OAuthTypes {

  datatype Option<+T> = None | Some(value: T)

  /** `GeoServerUser.ROOT_USERNAME`. */
  const ROOT_USERNAME: string := "root"
  /** The authority names of `GeoServerRole.ADMIN_ROLE` and `GeoServerRole.AUTHENTICATED_ROLE`. */
  const ADMIN_ROLE: Role := Role("ROLE_ADMINISTRATOR")
  const AUTHENTICATED_ROLE: Role := Role("ROLE_AUTHENTICATED")
  /** `OAuth2AccessToken.BEARER_TYPE`. */
  const BEARER_TYPE: string := "Bearer"
  /** The token type a `DefaultOAuth2AccessToken` built from a bare value carries. */
  const DEFAULT_TOKEN_TYPE: string := "bearer"
  /** The servlet container's session cookie. */
  const SESSION_COOKIE_NAME: string := "JSESSIONID"
  /** `HttpServletResponse.SC_NO_CONTENT`. */
  const SC_NO_CONTENT: int := 204
  /** The cookie max-age the filter writes on logout. */
  const NEGATIVE_MAX_AGE: int := -1

  /** `PreAuthenticatedUserNameRoleSource`. */
  datatype RoleSource = Header | UserGroupService | RoleService

  /** The parts of `OAuth2FilterConfig` the core reads. */
  datatype Config = Config(
    filterName: string,
    userAuthorizationUri: string,
    clientId: string,
    scopes: string,               // comma-separated
    redirectUri: string,
    logoutUri: Option<string>,
    roleSource: RoleSource,
    userGroupServiceName: string)

  datatype Role = Role(authority: string)

  datatype AccessToken = AccessToken(value: string, tokenType: string)

  /** The in-flight authorization request of the client context. */
  datatype AccessTokenRequest = AccessTokenRequest(stateKey: Option<string>)

  /** `OAuth2ClientContext`: the held token, the pending token request and the
      preserved state of redirect-initiated flows, keyed by state key. */
  datatype ClientContext = ClientContext(
    accessToken: Option<AccessToken>,
    tokenRequest: Option<AccessTokenRequest>,
    preservedState: map<string, string>)

  datatype Cookie = Cookie(name: string, value: string, maxAge: int, path: Option<string>)

  /** The request attributes the filter uses: the memo flag
      `UserNameAlreadyRetrieved` (present or not), the memoised `UserName`,
      and `LOGOUT_REDIRECT_ATTR`. */
  datatype Attributes = Attributes(
    alreadyRetrieved: bool,
    userName: Option<string>,
    logoutRedirect: Option<string>)

  datatype Request = Request(
    accessTokenParam: Option<string>,     // the `access_token` parameter
    attributes: Attributes,
    cookies: seq<Cookie>,
    sessionInvalidated: bool)

  datatype Response = Response(status: int, redirect: Option<string>, cookies: seq<Cookie>)

  /** A `PreAuthenticatedAuthenticationToken`: principal, granted roles, details. */
  datatype Authentication = Authentication(principal: string, roles: seq<Role>, details: string)

  datatype CacheKey = CacheKey(filterName: string, key: string)

  type AuthCache = map<CacheKey, Authentication>

  /** Calls into collaborators, recorded in the order they happen. */
  datatype Effect =
    | Validated(token: Option<AccessToken>)   // attemptAuthentication, with the token it saw
    | DisabledUserHandled(username: string)   // handleDisabledUser
    | RolesLookedUp(principal: string)        // getRoles
    | CacheWritten(key: CacheKey)             // authentication cache put
    | ChainContinued                          // chain.doFilter

  datatype State = State(
    request: Request,
    response: Response,
    client: ClientContext,
    context: Option<Authentication>,          // SecurityContextHolder's authentication
    cache: AuthCache,
    effects: seq<Effect>)

  /** A thrown exception: checked ones are `IOException`/`ServletException`,
      unchecked ones are runtime exceptions (including the
      `AuthenticationException`s of token validation). */
  datatype Fault = Checked(what: string) | Unchecked(what: string)

  /** How an operation that may throw ended. */
  datatype Outcome<+T> = Returned(value: T) | Threw(fault: Fault)

  /** The outcome of `attemptAuthentication`: a principal (possibly null), a
      `UserRedirectRequiredException`, or any other exception. */
  datatype Validation = Resolved(principal: Option<string>) | RedirectRequired | Failed(fault: Fault)

  datatype User = User(username: string, enabled: bool)

  /** `loadUserGroupService(name).getUserByUsername(p)`; `LookupFailed` is an `IOException`. */
  datatype UserLookup = Found(user: User) | NoSuchUser | LookupFailed

  /** `getRoles(request, principal)`; `RolesFailed` is an `IOException`. */
  datatype RoleLookup = Roles(roles: seq<Role>) | RolesFailed

  /** The collaborators the filter calls but does not define. */
  datatype Collaborators = Collaborators(
    validate: (Request, ClientContext) -> (ClientContext, Validation),
    lookupUser: (string, string) -> UserLookup,
    getRoles: (Request, string) -> RoleLookup,
    buildDetails: Request -> string,
    // The request's cache key and the authentication cached under it.
    cacheLookup: (Request, AuthCache) -> (Option<string>, Option<Authentication>),
    cacheAuthentication: (Authentication, Request) -> bool)
}

=== FILE: principal.dfy ===
/** `getPreAuthenticatedPrincipal(request, response)`: the per-request state
    machine that turns the held or supplied access token into a principal
    name, memoising the answer in request attributes. */
module PrincipalResolution {
  import opened JavaStrings
  import opened OAuthTypes
  import EntryPoint

  /** The new effects an operation appended to the trace of `s`. */
  predicate Extends(s: State, t: State) {
    |s.effects| <= |t.effects| && t.effects[..|s.effects|] == s.effects
  }

  function NewEffects(s: State, t: State): seq<Effect>
    requires Extends(s, t)
  {
    t.effects[|s.effects|..]
  }

  /** The effects of two steps in a row are those of the first, then those of the second. */
  lemma NewEffectsCompose(s: State, t: State, u: State)
    requires Extends(s, t) && Extends(t, u)
    ensures Extends(s, u)
    ensures NewEffects(s, u) == NewEffects(s, t) + NewEffects(t, u)
  {
    assert u.effects[..|s.effects|] == u.effects[..|t.effects|][..|s.effects|];
    assert u.effects == t.effects + NewEffects(t, u);
  }

  /** The effects the principal-resolution and authentication steps may record. */
  predicate AuthenticationEffect(e: Effect) {
    e.Validated? || e.DisabledUserHandled? || e.RolesLookedUp?
  }

  /** The `access_token` request parameter becomes the held token (with the
      default token type) only when the client context holds no token; a
      held token is never replaced. */
  function AdoptAccessToken(client: ClientContext, param: Option<string>): (r: ClientContext)
    ensures r.tokenRequest == client.tokenRequest && r.preservedState == client.preservedState
    ensures client.accessToken.Some? ==> r.accessToken == client.accessToken
    ensures client.accessToken.None? ==>
              r.accessToken == (if param.Some? then Some(AccessToken(param.value, DEFAULT_TOKEN_TYPE)) else None)
  {
    if param.Some? && client.accessToken.None? then
      client.(accessToken := Some(AccessToken(param.value, DEFAULT_TOKEN_TYPE)))
    else client
  }

  /** The token the validator is handed for a request that is not memoised. */
  function TokenSeen(s: State): Option<AccessToken> {
    AdoptAccessToken(s.client, s.request.accessTokenParam).accessToken
  }

  /** What the validator answers for a request that is not memoised. */
  function ValidationOf(co: Collaborators, s: State): Validation {
    co.validate(s.request, AdoptAccessToken(s.client, s.request.accessTokenParam)).1
  }

  /** A null or blank principal is no principal. */
  function NonBlank(p: Option<string>): (r: Option<string>)
    ensures r.Some? <==> p.Some? && !IsBlank(p.value)
    ensures r.Some? ==> r == p
  {
    if p.Some? && IsBlank(p.value) then None else p
  }

  /** The principal the validator's answer yields: a resolved principal
      unless it is blank, nothing after a redirect. */
  function PrincipalOf(v: Validation): Option<string>
    requires !v.Failed?
  {
    if v.Resolved? then NonBlank(v.principal) else None
  }

  /** Sets the memo flag, and records the principal when there is one. */
  function Memoise(s: State, principal: Option<string>): (r: (State, Outcome<Option<string>>))
    ensures r.1 == Returned(principal)
    ensures r.0.request.attributes.alreadyRetrieved
    ensures r.0.request.attributes.userName
              == (if principal.Some? then principal else s.request.attributes.userName)
    ensures r.0 == s.(request := s.request.(attributes := r.0.request.attributes))
    ensures r.0.request.attributes.logoutRedirect == s.request.attributes.logoutRedirect
  {
    var attrs := s.request.attributes.(alreadyRetrieved := true);
    var attrs' := if principal.Some? then attrs.(userName := principal) else attrs;
    (s.(request := s.request.(attributes := attrs')), Returned(principal))
  }

  /** Discards the principal of a disabled user when roles come from the
      user/group service, notifying the disabled-user hook once; an
      `IOException` from the service becomes a runtime exception. */
  function DiscardDisabled(cfg: Config, co: Collaborators, s: State, principal: Option<string>)
    : (r: (State, Outcome<Option<string>>))
    ensures Extends(s, r.0)
    ensures r.1.Returned? ==> r.1.value == principal || r.1.value.None?
    ensures r.1.Returned? && r.1.value.None? && principal.Some? ==>
              cfg.roleSource == UserGroupService
              && co.lookupUser(cfg.userGroupServiceName, principal.value).Found?
              && !co.lookupUser(cfg.userGroupServiceName, principal.value).user.enabled
              && NewEffects(s, r.0)
                 == [DisabledUserHandled(co.lookupUser(cfg.userGroupServiceName, principal.value).user.username)]
    ensures r.1.Threw? ==> r.0 == s && principal.Some? && cfg.roleSource == UserGroupService
    ensures r.1.Returned? && r.1.value == principal ==> NewEffects(s, r.0) == []
  {
    if principal.Some? && cfg.roleSource == UserGroupService then
      match co.lookupUser(cfg.userGroupServiceName, principal.value)
      case LookupFailed => (s, Threw(Unchecked("IOException from the user/group service")))
      case NoSuchUser => (s, Returned(principal))
      case Found(u) =>
        if !u.enabled then (s.(effects := s.effects + [DisabledUserHandled(u.username)]), Returned(None))
        else (s, Returned(principal))
    else (s, Returned(principal))
  }

  /** What follows a successful validation: drop a disabled user's
      principal, then memoise the answer. */
  function Settle(cfg: Config, co: Collaborators, s: State, principal: Option<string>)
    : (r: (State, Outcome<Option<string>>))
    ensures Extends(s, r.0)
    ensures forall i :: 0 <= i < |NewEffects(s, r.0)| ==> NewEffects(s, r.0)[i].DisabledUserHandled?
    ensures r.1.Returned? ==> r.0.request.attributes.alreadyRetrieved
    ensures r.1.Returned? && r.1.value.Some? ==> r.1.value == principal && r.0.request.attributes.userName == r.1.value
    ensures r.1.Returned? && r.1.value.None? ==> r.0.request.attributes.userName == s.request.attributes.userName
    ensures r.1.Threw? ==> r.0.request == s.request
    ensures r.0 == s.(request := r.0.request, effects := r.0.effects)
    ensures r.0.request == s.request.(attributes := r.0.request.attributes)
    ensures r.0.request.attributes.logoutRedirect == s.request.attributes.logoutRedirect
  {
    var (s2, o) := DiscardDisabled(cfg, co, s, principal);
    if o.Threw? then (s2, o)
    else
      var m := Memoise(s2, o.value);
      assert NewEffects(s, m.0) == NewEffects(s, s2);
      m
  }

  /** Adopts the `access_token` parameter, runs the validator once, and
      redirects to the login URI when the validator asks for user approval. */
  function ValidateStep(cfg: Config, co: Collaborators, s: State): (r: (State, Validation))
    ensures Extends(s, r.0) && NewEffects(s, r.0) == [Validated(TokenSeen(s))]
    ensures r.1 == ValidationOf(co, s)
    ensures r.0 == s.(client := r.0.client, response := r.0.response, effects := r.0.effects)
    ensures r.0.response == if r.1.RedirectRequired? then s.response.(redirect := Some(EntryPoint.LoginUri(cfg))) else s.response
  {
    var held := AdoptAccessToken(s.client, s.request.accessTokenParam);
    var (client', v) := co.validate(s.request, held);
    var validated := s.(client := client', effects := s.effects + [Validated(held.accessToken)]);
    if v.RedirectRequired?
    then (validated.(response := validated.response.(redirect := Some(EntryPoint.LoginUri(cfg)))), v)
    else (validated, v)
  }

  /** `getPreAuthenticatedPrincipal(request, response)`. */
  function ResolvePrincipal(cfg: Config, co: Collaborators, s: State): (r: (State, Outcome<Option<string>>))
    // A memoised request answers from its attributes and touches nothing.
    ensures s.request.attributes.alreadyRetrieved ==> r == (s, Returned(s.request.attributes.userName))
    // Otherwise the validator runs exactly once, on the held token or the adopted parameter.
    ensures Extends(s, r.0)
    ensures !s.request.attributes.alreadyRetrieved ==>
              |NewEffects(s, r.0)| >= 1 && NewEffects(s, r.0)[0] == Validated(TokenSeen(s))
              && forall i :: 1 <= i < |NewEffects(s, r.0)| ==> NewEffects(s, r.0)[i].DisabledUserHandled?
    // Every normal return sets the memo flag; the user name is recorded exactly when there is a principal.
    ensures r.1.Returned? ==> r.0.request.attributes.alreadyRetrieved
    ensures r.1.Returned? && r.1.value.Some? ==> r.0.request.attributes.userName == r.1.value
    ensures !s.request.attributes.alreadyRetrieved && r.1.Returned? && r.1.value.Some? ==> !IsBlank(r.1.value.value)
    ensures r.1.Returned? && r.1.value.None? ==>
              r.0.request.attributes.userName == s.request.attributes.userName
    // A thrown exception leaves the request attributes as they were.
    ensures r.1.Threw? ==> r.0.request == s.request
    // Nothing else changes but the response, and that only by a redirect.
    ensures r.0.context == s.context && r.0.cache == s.cache
    ensures r.0.request.cookies == s.request.cookies && r.0.request.accessTokenParam == s.request.accessTokenParam
    ensures r.0.request.sessionInvalidated == s.request.sessionInvalidated
    ensures r.0.request.attributes.logoutRedirect == s.request.attributes.logoutRedirect
    ensures r.0.response == s.response || r.0.response == s.response.(redirect := Some(EntryPoint.LoginUri(cfg)))
  {
    if s.request.attributes.alreadyRetrieved then (s, Returned(s.request.attributes.userName))
    else
      var (s1, v) := ValidateStep(cfg, co, s);
      if v.Failed? then (s1, Threw(v.fault))
      else
        var r := Settle(cfg, co, s1, PrincipalOf(v));
        NewEffectsCompose(s, s1, r.0);
        assert forall i :: 1 <= i < |NewEffects(s, r.0)| ==> NewEffects(s, r.0)[i] == NewEffects(s1, r.0)[i - 1];
        r
  }

  /** The validator's answer decides the outcome: a failure propagates, a
      redirect sends the browser to the login URI and yields no principal,
      and a resolved principal survives unless it is blank or belongs to a
      disabled user of the user/group service. */
  lemma ValidationOutcomes(cfg: Config, co: Collaborators, s: State)
    requires !s.request.attributes.alreadyRetrieved
    ensures var r := ResolvePrincipal(cfg, co, s);
            match ValidationOf(co, s)
            case Failed(f) => r.1 == Threw(f)
            case RedirectRequired =>
              r.1 == Returned(None) && r.0.response.redirect == Some(EntryPoint.LoginUri(cfg))
            case Resolved(p) =>
              (NonBlank(p).None? ==> r.1 == Returned(None))
              && (NonBlank(p).Some? && cfg.roleSource != UserGroupService ==> r.1 == Returned(p))
  {
  }

  /** With roles taken from the user/group service, a principal whose account
      exists but is disabled is discarded and the hook runs exactly once;
      an enabled or unknown account keeps its principal. */
  lemma DisabledUserIsDiscarded(cfg: Config, co: Collaborators, s: State, p: string)
    requires !s.request.attributes.alreadyRetrieved
    requires cfg.roleSource == UserGroupService
    requires ValidationOf(co, s) == Resolved(Some(p)) && !IsBlank(p)
    ensures var r := ResolvePrincipal(cfg, co, s);
            match co.lookupUser(cfg.userGroupServiceName, p)
            case Found(u) =>
              if u.enabled then r.1 == Returned(Some(p)) && NewEffects(s, r.0) == [Validated(TokenSeen(s))]
              else r.1 == Returned(None)
                   && NewEffects(s, r.0) == [Validated(TokenSeen(s)), DisabledUserHandled(u.username)]
                   && multiset(r.0.effects)[DisabledUserHandled(u.username)]
                      == multiset(s.effects)[DisabledUserHandled(u.username)] + 1
            case NoSuchUser => r.1 == Returned(Some(p))
            case LookupFailed => r.1.Threw? && r.1.fault.Unchecked?
  {
    var r := ResolvePrincipal(cfg, co, s);
    assert r.0.effects == s.effects + NewEffects(s, r.0);
  }

  /** A second resolution within the same request answers from the memo: it
      returns the first answer and changes nothing, so the validator runs
      once per request. The request must start with no recorded `UserName`
      as well as no memo flag. A first resolution that finds no principal
      sets the flag but leaves an earlier `UserName` in place (lines 275-276
      write it only for a present principal). The memo (lines 228-229) would
      then return that stale name instead of the first answer. */
  lemma {:induction false} ResolveIsMemoised(cfg: Config, co: Collaborators, s: State)
    requires !s.request.attributes.alreadyRetrieved && s.request.attributes.userName.None?
    requires ResolvePrincipal(cfg, co, s).1.Returned?
    ensures var (s1, o1) := ResolvePrincipal(cfg, co, s);
            ResolvePrincipal(cfg, co, s1) == (s1, o1)
  {
  }

  /** An access token already held is the one the validator sees, whatever
      the request supplies. */
  lemma HeldTokenIsNeverOverwritten(cfg: Config, co: Collaborators, s: State)
    requires !s.request.attributes.alreadyRetrieved && s.client.accessToken.Some?
    ensures var r := ResolvePrincipal(cfg, co, s);
            NewEffects(s, r.0)[0] == Validated(s.client.accessToken)
  {
  }
}
